=== FILE: README.md ===
# 3DQ analysis core in Dafny

A model of the real-time core of the 3DQ audio visualizer. It covers the path from incoming stereo samples to the heights of the 3D spectrogram mesh:

- **AbstractRingBuffer** (`AbstractRingBuffer`). The virtual single-reader, single-writer FIFO.
  - Tracks the read position (`head`) and the write position (`tail`).
  - Computes the ready count and the free space.
  - Splits a request into at most two contiguous ranges (`generateResult`).
  - Performs full reads and writes through a caller-supplied operation that reports how many items it handled.
- **RingBuffer** (`RingBuffer`). The multi-channel sample ring built on that FIFO.
  - `writeSamples` appends every channel of an audio block.
  - `readSamples` copies the oldest samples out and releases only the share `1 - overlapRatio`.
  - `setVirtualSize` resizes the FIFO.
- **LockFreeQueue** (`LockFreeQueue`). The bounded single-producer, single-consumer queue of typed slots, which keeps one slot always unused.
- **NormalizedRange** (`NormalizedRange`). An interval mapped from [0, 1], either linearly or logarithmically, and back.
- **FrequencyAxis** (`FrequencyAxis`). `resolution` frequencies spread over a range, either linearly or logarithmically.
- **Filters** (`Filters`). Lanczos windowed-sinc interpolation and linear interpolation.
- **Spectrogram** (`Spectrogram`). The per-frame analysis:
  - read a frame with 50 % overlap;
  - sum the two channels;
  - apply the window and the magnitude FFT;
  - average the last four spectra;
  - resample onto the display axis: interpolation while the axis is finer than the FFT bins, then peak-hold decimation;
  - convert a resampled value into a (frequency, normalized level) pair.
- **Spectrogram3D** (`Spectrogram3D`). The mesh:
  - the vertex grid;
  - the triangle index list;
  - the per-frame scroll, where the newest levels enter the first row and older rows move back in time.

`MathUtil` holds the C++ conversions the source relies on: `std::floor`, `static_cast<int>` (truncation toward zero), and `jmap` as an affine map. It also holds the wrap-around of an index that has passed the end of the buffer. `Wrappers`, in its own file, holds `Option` and `Result`.

The model is sequential:

- The queue and the FIFO keep their two positions as plain fields of one immutable state.
- Each operation is a function from state to state (or a method where the source loops).
- Floating-point values are mathematical reals.
- Foreign numerical code comes in as parameters:
  - the natural logarithm and exponential, as `NR.Transcendentals` with the laws the proofs need stated in `NR.Lawful`;
  - the Hann window table, the FFT and the Lanczos sinc product, as `Spectrogram.Dsp`;
  - `Decibels::gainToDecibels`, as a function argument.

## Model

| member | source | states |
|---|---|---|
| `MathUtil.FloorToNInf` | Source/Utilities/Math.h:15-20 | The result is the largest integer not above the input. |
| `MathUtil.Trunc` | Source/DSP/Filters.h:39 | A cast to `int` rounds toward zero. It agrees with the floor on non-negative values and mirrors it on negative ones. The result is non-negative exactly when the input is above -1. |
| `AbstractRingBuffer.Create` | Source/Utilities/AbstractRingBuffer.cpp:9-13 | A FIFO of positive capacity starts with nothing ready and capacity - 1 positions free. |
| `AbstractRingBuffer.SetTotalSize` | Source/Utilities/AbstractRingBuffer.cpp:15-20 | After resizing, the FIFO has the new size, nothing is ready, and all but one position is free. |
| `AbstractRingBuffer.NumReady` | Source/Utilities/AbstractRingBuffer.cpp:32-37 | The ready count lies in [0, size - 1]. Advancing the read position by it round the ring reaches the write position. It is 0 exactly when the two positions coincide. |
| `AbstractRingBuffer.FreeSpace` | Source/Utilities/AbstractRingBuffer.cpp:27-30 | Ready plus free is always size - 1, so one position is never used. There is no free space exactly when the write position sits one step behind the read position. |
| `AbstractRingBuffer.Reset` | Source/Utilities/AbstractRingBuffer.cpp:39-43 | After a reset nothing is ready and size - 1 positions are free. |
| `AbstractRingBuffer.GenerateResult` | Source/Utilities/AbstractRingBuffer.cpp:45-66 | A request for nothing gives two empty ranges at 0. Otherwise the first range starts at the first index and ends inside the buffer, and the second starts at 0 and is bounded by the last index. A request that fits before the last index is covered exactly. |
| `AbstractRingBuffer.ReadRangesCoverReady` | Source/Utilities/AbstractRingBuffer.cpp:45-66 | For a read within the ready count, item k of the two ranges is the position k steps after the head. The ranges therefore cover the oldest n ready positions in FIFO order, and wrap only when the ready region does. |
| `AbstractRingBuffer.WriteRangesCoverFree` | Source/Utilities/AbstractRingBuffer.cpp:45-66 | For a write within the free space, item k of the two ranges is the position k steps after the tail. The wrapped part stays strictly below the head, so a write never touches ready data. |
| `AbstractRingBuffer.CountIsRequest` | Source/Utilities/AbstractRingBuffer.cpp:57-62 | The two range sizes add up to the request whenever the request fits between the first index and the last one. |
| `AbstractRingBuffer.Read` | Source/Utilities/AbstractRingBuffer.h:87-116 | A read fails, with no change, exactly when more items are requested than are ready. Otherwise the head moves round the ring by the count the operation reports, the tail stays, and the ready count drops by that count. |
| `AbstractRingBuffer.Write` | Source/Utilities/AbstractRingBuffer.h:124-153 | A write fails, with no change, exactly when more items are offered than there is free space. Otherwise the tail moves round the ring by the count the operation reports, the head stays, and the ready count grows by that count. |
| `AbstractRingBuffer.ReadAdvancesHeadModulo` | Source/Utilities/AbstractRingBuffer.h:106-114 | Subtracting the size once after a successful read gives the head plus the count modulo the size. |
| `AbstractRingBuffer.WriteAdvancesTailModulo` | Source/Utilities/AbstractRingBuffer.h:143-151 | Subtracting the size once after a successful write gives the tail plus the count modulo the size. |
| `AbstractRingBuffer.WriteMovesTail` | Source/Utilities/AbstractRingBuffer.h:124-153 | A write within the free space whose operation handles everything succeeds, moves only the tail, and adds exactly n ready items. |
| `AbstractRingBuffer.ReadMovesHead` | Source/Utilities/AbstractRingBuffer.h:87-116 | A read within the ready count whose operation handles everything succeeds, moves only the head, and removes exactly n ready items. |
| `AbstractRingBuffer.WriteThenReadEmpties` | Source/Utilities/AbstractRingBuffer.h:87-153 | Writing n items into an empty FIFO and reading n back both succeed and leave the FIFO empty. |
| `RingBuffer.Create` | Source/Utilities/RingBuffer.h:33-37 | Corrected constructor. The storage has exactly bufferSize + 1 samples per channel, one for each of the FIFO's bufferSize + 1 positions. The ring is empty, and exactly bufferSize samples can be written. |
| `RingBuffer.CreateAsWritten` | Source/Utilities/RingBuffer.h:33-37 | As written, the storage holds bufferSize samples per channel while the FIFO hands out bufferSize + 1 positions. |
| `RingBuffer.AsWrittenWriteLeavesStorage` | Source/Utilities/RingBuffer.h:33-57 | With the constructor as written: fill the ring, read one sample, write one more. That write succeeds and copies to position bufferSize, past the end of every channel. |
| `RingBuffer.WriteStaysInStorage` | Source/Utilities/RingBuffer.h:39-57 | In a valid ring, which the corrected constructor builds, every range a write can be handed lies inside the storage. |
| `RingBuffer.CopyFrom` | Source/Utilities/RingBuffer.h:47 | A block copy replaces exactly the positions from the start index on with the source samples and keeps every other sample. |
| `RingBuffer.WriteChannel` | Source/Utilities/RingBuffer.h:43-54 | On one channel, block sample j lands at the j-th position of the two ranges. Every position outside both ranges is unchanged. |
| `RingBuffer.ReadChannel` | Source/Utilities/RingBuffer.h:63-74 | On one channel, output position k receives the k-th position of the two ranges. The rest of the output is unchanged. |
| `RingBuffer.ReadChannelCopiesOldest` | Source/Utilities/RingBuffer.h:59-77 | Reading ranges that split the oldest n ready positions yields those samples, oldest first. |
| `RingBuffer.AppendChannel` | Source/Utilities/RingBuffer.h:39-57 | Writing a channel into the free ranges and moving the tail past them makes the ready samples the old ready samples followed by the block. |
| `RingBuffer.ReleaseDropsFront` | Source/Utilities/RingBuffer.h:75 | Moving the head by the released count drops exactly that many samples from the front of every channel's ready samples. |
| `RingBuffer.WriteSamples` | Source/Utilities/RingBuffer.h:39-57 | Writing a block fails, leaving the ring untouched, exactly when the block is longer than the free space. Otherwise every written channel's ready samples gain the block's channel at the end, and unwritten channels keep their storage. |
| `RingBuffer.ReadSamples` | Source/Utilities/RingBuffer.h:59-77 | Reading fails, leaving ring and buffer untouched, exactly when more samples are requested than are ready. Otherwise every channel of the buffer receives the oldest ready samples. Only trunc(n * (1 - overlap)) of them are released, and the rest stay ready in order. With no overlap, all n are released. |
| `RingBuffer.ConsumedAtMostCopied` | Source/Utilities/RingBuffer.h:75 | With a non-negative overlap, the released count never exceeds the copied count. With zero overlap it equals it. |
| `RingBuffer.SetVirtualSize` | Source/Utilities/RingBuffer.h:79-87 | Corrected comparison. When the FIFO already manages readSize * chunkCount data positions the ring is unchanged. Otherwise it is resized to that many plus one and emptied. The storage is never touched. |
| `RingBuffer.SetVirtualSizeAsWritten` | Source/Utilities/RingBuffer.h:79-87 | As written, the data size is compared with the total size. Any mismatch resizes to the data size plus one and empties the FIFO. |
| `RingBuffer.AsWrittenSetVirtualSizeDiscards` | Source/Utilities/RingBuffer.h:79-87 | Re-applying the size a ring already has discards its ready samples as written, while the corrected version keeps the ring. |
| `RingBuffer.WriteIntoEmpty` | Source/Utilities/RingBuffer.h:39-57 | A block shorter than the FIFO written into an empty ring always succeeds, and afterwards each channel's ready samples are exactly the block's channel. |
| `RingBuffer.ReadEverything` | Source/Utilities/RingBuffer.h:59-77 | Reading every ready sample with no overlap succeeds, returns all the ready samples of each channel and leaves the ring empty. |
| `RingBuffer.RoundTrip` | Source/Utilities/RingBuffer.h:39-77 | A block written into an empty ring and read back with no overlap comes back unchanged in every channel, and the ring is empty again. |
| `LockFreeQueue.Create` | Source/Utilities/LockFreeQueue.h:42-54 | Construction fails with the invalid-argument error exactly when the capacity is below 2. Otherwise the queue is empty with that capacity. |
| `LockFreeQueue.Size` | Source/Utilities/LockFreeQueue.h:154-162 | The size lies in [0, capacity - 1]. It is the distance round the ring from the read to the write position. It is 0 exactly when the two coincide. |
| `LockFreeQueue.NextIndex` | Source/Utilities/LockFreeQueue.h:91-95 | The next slot is the current one plus one, modulo the capacity. |
| `LockFreeQueue.TryEmplace` | Source/Utilities/LockFreeQueue.h:86-103 | A push fails, with no change, exactly when the queue already holds capacity - 1 elements. Otherwise the element is appended behind the others. Either way exactly the occupied slots hold values. |
| `LockFreeQueue.Front` | Source/Utilities/LockFreeQueue.h:132-138 | There is no front exactly when the queue is empty. Otherwise the front is the oldest element. |
| `LockFreeQueue.Pop` | Source/Utilities/LockFreeQueue.h:140-152 | On a non-empty queue, popping removes exactly the oldest element, destroys its slot and keeps the rest in order. |
| `LockFreeQueue.Empty` | Source/Utilities/LockFreeQueue.h:164 | The queue reports empty exactly when it holds no elements. |
| `LockFreeQueue.Capacity` | Source/Utilities/LockFreeQueue.h:166 | The capacity is at least 2 and exceeds the number of elements by at least one. |
| `LockFreeQueue.Destroy` | Source/Utilities/LockFreeQueue.h:56-62 | The destructor's loop destroys every element, oldest first, and leaves no slot holding a value. |
| `LockFreeQueue.PushAllIsFifo` | Source/Utilities/LockFreeQueue.h:118-130 | Pushes that fit in the free room all succeed, and the elements come out in the order they went in. |
| `LockFreeQueue.PushIntoFullFails` | Source/Utilities/LockFreeQueue.h:96-99 | After capacity - 1 pushes into an empty queue, one more push fails and leaves the queue as it was. |
| `NormalizedRange.SetMinMax` | Source/Utilities/NormalizedRange.h:21-27 | The given bounds are stored as they are, together with their logarithms, so the new size is max - min. Ordered bounds give a valid range, and a positive lower bound also makes the range ready for the log scale. |
| `NormalizedRange.Create` | Source/Utilities/NormalizedRange.h:15-19 | Ordered bounds are stored as given, and with a positive minimum the range is ready for the log scale. |
| `NormalizedRange.GetSize` | Source/Utilities/NormalizedRange.h:39-42 | The size is positive exactly when the bounds are ordered, and the minimum plus the size is the maximum. |
| `NormalizedRange.GetLinearValue` | Source/Utilities/NormalizedRange.h:44-47 | Position 0 maps to the minimum and position 1 to the maximum. A position in [0, 1] maps into the range. |
| `NormalizedRange.LinearValueInverts` | Source/Utilities/NormalizedRange.h:44-47 | The linear scale is strictly increasing, and normalizing against the range's size recovers the position. |
| `NormalizedRange.GetLogValue` | Source/Utilities/NormalizedRange.h:49-52 | The log-scale value is positive, and its logarithm is the position mapped linearly between the logarithms of the bounds. |
| `NormalizedRange.LogBoundsOrdered` | Source/Utilities/NormalizedRange.h:25-26 | The stored logarithms of ordered positive bounds are ordered, so the log-scale divisor is never zero. |
| `NormalizedRange.LogValueEndpoints` | Source/Utilities/NormalizedRange.h:49-52 | On the log scale, position 0 is the minimum and position 1 the maximum. |
| `NormalizedRange.LogValueIncreasing` | Source/Utilities/NormalizedRange.h:49-52 | The log scale is strictly increasing in the position. |
| `NormalizedRange.GetNormalizedLog` | Source/Utilities/NormalizedRange.h:54-68 | Values at or below the minimum normalize to 0, and values at or above the maximum normalize to 1. Only a value strictly inside the range needs distinct stored logarithms, because only there is the log span divided by. |
| `NormalizedRange.NormalizedLogInside` | Source/Utilities/NormalizedRange.h:64-67 | A value strictly inside the range normalizes strictly inside (0, 1). |
| `NormalizedRange.NormalizedLogThenLogValue` | Source/Utilities/NormalizedRange.h:49-68 | Normalizing a value strictly inside the range and mapping it back on the log scale returns the value. |
| `NormalizedRange.LogValueThenNormalizedLog` | Source/Utilities/NormalizedRange.h:49-68 | Mapping a position strictly inside (0, 1) on the log scale and normalizing it returns the position. |
| `FrequencyAxis.Remap` | Source/Utilities/FrequencyAxis.h:93-119 | Remapping yields exactly as many values as the axis has entries. The values themselves are pinned by `FrequencyAxis.LinearAxisEvenSteps` and `FrequencyAxis.LogAxisEvenSteps` (even spacing), and by `FrequencyAxis.LinearAxisIsUnitInterval` and `FrequencyAxis.LogAxisSpansRange` (ends and order). |
| `FrequencyAxis.Create` | Source/Utilities/FrequencyAxis.h:33-40 | A new axis is logarithmic, has the requested resolution and range, and holds the values its range and distribution produce. |
| `FrequencyAxis.SetDistribution` | Source/Utilities/FrequencyAxis.h:46-53 | Afterwards the axis has the new distribution, and the same range and resolution, with values matching them. Setting the current distribution changes nothing. |
| `FrequencyAxis.SetResolution` | Source/Utilities/FrequencyAxis.h:59-67 | Afterwards the axis has the new resolution, and the same range and distribution, with values matching them. Setting the current resolution changes nothing. |
| `FrequencyAxis.FractionStrictlyIncreasing` | Source/Utilities/FrequencyAxis.h:104 | The fraction i / (n - 1) strictly increases with i. |
| `FrequencyAxis.LinearAxisIsUnitInterval` | Source/Utilities/FrequencyAxis.h:100-108 | A linear axis runs from exactly 0 to exactly 1 in strictly increasing steps and does not depend on the frequency range at all. |
| `FrequencyAxis.LogAxisSpansRange` | Source/Utilities/FrequencyAxis.h:109-116 | A logarithmic axis over a positive range starts at its minimum, ends at its maximum and strictly increases. |
| `FrequencyAxis.FractionStep` | Source/Utilities/FrequencyAxis.h:104 | Neighbouring fractions i / (n - 1) are exactly 1 / (n - 1) apart. |
| `FrequencyAxis.LinearAxisEvenSteps` | Source/Utilities/FrequencyAxis.h:100-108 | The value at index i of a linear axis is i / (n - 1), so neighbouring values are exactly 1 / (n - 1) apart. |
| `FrequencyAxis.LogAxisEvenSteps` | Source/Utilities/FrequencyAxis.h:109-116 | The logarithm of the value at index i of a logarithmic axis lies the fraction i / (n - 1) of the way between the logarithms of the bounds. Neighbouring values are therefore the same distance apart in log frequency: (log max - log min) / (n - 1). |
| `Filters.LanczosKernel` | Source/DSP/Filters.h:13-17 | At 0 the kernel is exactly 1. |
| `Filters.LanczosFilter` | Source/DSP/Filters.h:19-34 | The result is the sum of the weighted samples from floor(x) - size + 1 to floor(x) + size, skipping positions outside the signal. |
| `Filters.WindowSumReadsOnlyWindow` | Source/DSP/Filters.h:24-31 | Two signals that agree on the samples inside the window filter to the same value. |
| `Filters.LanczosExactAtSamples` | Source/DSP/Filters.h:13-34 | Suppose the window vanishes at every non-zero whole number, as the sinc product does. Then filtering at a sample position returns that sample exactly. |
| `Filters.LinearFilter` | Source/DSP/Filters.h:36-44 | At a non-negative position the result lies between the sample at the truncated position and the next one (the last one at the end). At a whole-number position it is that sample. When the two samples differ, the result lies the fractional part of the position of the way from the first to the second. |
| `Filters.LinearFilterSlope` | Source/DSP/Filters.h:36-44 | Between two neighbouring samples the filter is a straight line. Two positions with the same truncated position differ in value by their distance times the step from the first sample to the second. |
| `Spectrogram.CreateAverager` | Source/Visualizers/Spectrogram.cpp:19-21 | The cleared averager is consistent, since its running sum is the sum of its four frame slots, and its pointer starts at slot 1. |
| `Spectrogram.NextPtr` | Source/Visualizers/Spectrogram.cpp:75-76 | The pointer cycles through slots 1 to 4, never landing on the running-sum slot 0. |
| `Spectrogram.AveragerUpdate` | Source/Visualizers/Spectrogram.cpp:72-76 | The scaled new spectrum replaces the slot under the pointer, and the other frame slots are kept. The running sum is again the sum of the four frame slots. |
| `Spectrogram.AveragerSumsLastFour` | Source/Visualizers/Spectrogram.cpp:72-78 | After four updates the pointer is back where it was, and the averaged spectrum is exactly the sum of the last four scaled spectra. |
| `Spectrogram.SumChannels` | Source/Visualizers/Spectrogram.cpp:51-65 | The FFT input holds channel 0 plus channel 1 on the first readSize positions and zero on the rest. |
| `Spectrogram.ApplyWindow` | Source/Visualizers/Spectrogram.cpp:68 | Each of the first table-length values is multiplied by its window coefficient, and the rest are kept. |
| `Spectrogram.PrepareFrame` | Source/Visualizers/Spectrogram.cpp:51-68 | Summing the two channels into the cleared buffer and then windowing yields exactly the transform's input: the windowed channel sum on the first FFT-size positions and zero after. |
| `Spectrogram.HalfFrameConsumed` | Source/Visualizers/Spectrogram.cpp:49 | Reading a frame with overlap 0.5 releases exactly half a frame. |
| `Spectrogram.BinOf` | Source/Visualizers/Spectrogram.cpp:180-183 | For any axis value within [0, Nyquist], the truncated bin lies inside the spectrum. |
| `Spectrogram.BinPositionWithin` | Source/Visualizers/Spectrogram.cpp:133-135 | A frequency within [0, Nyquist] maps to a fractional bin within [0, bins - 1]. |
| `Spectrogram.Crossover` | Source/Visualizers/Spectrogram.cpp:149-153 | The hand-over index is the first index whose step to the next axis value is wider than an FFT bin, or the last index. Every step before it is at most a bin wide. |
| `Spectrogram.CrossoverIsFirstWide` | Source/Visualizers/Spectrogram.cpp:149-153 | Any index preceded only by narrow steps whose own step is wide, or the last index, is the hand-over index. |
| `Spectrogram.FirstMax` | Source/Visualizers/Spectrogram.cpp:185-198 | The result lies in the scanned bins, is at least as loud as all of them, and is strictly louder than every bin before it. |
| `Spectrogram.FirstMaxIsUnique` | Source/Visualizers/Spectrogram.cpp:185-198 | Any index with those three properties is that first loudest bin. |
| `Spectrogram.PeakBin` | Source/Visualizers/Spectrogram.cpp:185-198 | The scan returns the first loudest bin after the previous position's bin, up to the current one. When there is no such bin it returns the current bin. |
| `Spectrogram.NearestBin` | Source/Visualizers/Spectrogram.cpp:154-155 | The rounded bin is always clamped into the spectrum. |
| `Spectrogram.InterpolateAt` | Source/Visualizers/Spectrogram.cpp:146-177 | Each mode stores the value its filter gives at the fractional bin: the nearest bin, the linear filter or the Lanczos filter. |
| `Spectrogram.InterpolateLow` | Source/Visualizers/Spectrogram.cpp:143-177 | The first phase stops exactly at the hand-over index. Every position below it holds the interpolated value at its fractional bin. |
| `Spectrogram.DecimateHigh` | Source/Visualizers/Spectrogram.cpp:179-202 | The second phase keeps the positions below the hand-over index. The hand-over index shows its own bin, and each later position shows the loudest bin between the previous position's bin and its own. |
| `Spectrogram.InterpolateData` | Source/Visualizers/Spectrogram.cpp:128-203 | The resampled spectrum is interpolated below the hand-over index, is the hand-over index's own bin at it, and is peak-held above it. |
| `Spectrogram.GetFrequencyInfo` | Source/Visualizers/Spectrogram.cpp:90-106 | The reported frequency is that of the mirrored axis position. With a zero maximum level the level is 0. Otherwise the level is the position on [-90 dB, 10 dB] of the decibel value of the resampled sample. |
| `Spectrogram.MirrorIsInvolution` | Source/Visualizers/Spectrogram.cpp:92 | Mirroring the index twice gives it back, and distinct indices read distinct axis positions. |
| `Spectrogram.ReportedFrequencyDecreases` | Source/Visualizers/Spectrogram.cpp:92-93 | On a strictly increasing axis the reported frequency strictly decreases with the index. Index 0 reports the top of the axis. |
| `Spectrogram.LevelUnclamped` | Source/Visualizers/Spectrogram.cpp:97-103 | The level lies in [0, 1] exactly when the decibel value lies in [-90, 10]. It exceeds 1 above 10 dB and is negative below -90 dB. |
| `Spectrogram.UpdateData` | Source/Visualizers/Spectrogram.cpp:46-88 | One frame always reports success. When a frame is ready the read buffer receives its oldest samples and half a frame is released; on underrun the ring and the previous frame are kept. The windowed channel sum's spectrum, scaled, replaces the oldest averaged spectrum. The maximum level is the fixed -12 dB gain, and the display data is the averaged spectrum resampled with the Lanczos filter. |
| `Spectrogram.CreateAnalyzer` | Source/Visualizers/Spectrogram.cpp:11-21 | The axis is logarithmic with the requested resolution, from exactly 20 Hz to exactly the Nyquist frequency. The ring is an empty stereo ring with room for ten frames. The averager and display data are cleared, with the pointer at slot 1. |
| `Spectrogram.AxisWithinRange` | Source/Visualizers/Spectrogram.cpp:13 | Every value of a logarithmic axis over a positive range lies between the bounds, so the constructed axis lies within [0, Nyquist]. |
| `Spectrogram3D.InitializeVertices` | Source/Visualizers/Spectrogram3D.cpp:158-177 | There are X * Z vertices. The vertex of time row zi and frequency column xi sits at index zi * X + xi, at the grid coordinates of its column and row, with height 0. |
| `Spectrogram3D.VertexIndexInGrid` | Source/Visualizers/Spectrogram3D.cpp:170-176 | Every grid position's vertex index lies in [0, X * Z). |
| `Spectrogram3D.VertexIndexInjective` | Source/Visualizers/Spectrogram3D.cpp:170-176 | Distinct grid positions have distinct vertex indices. |
| `Spectrogram3D.VertexIndexCovers` | Source/Visualizers/Spectrogram3D.cpp:170-176 | Every vertex index belongs to a grid position, namely row k / X and column k % X. |
| `Spectrogram3D.GridStopsShortOfEdge` | Source/Visualizers/Spectrogram3D.cpp:164-174 | The grid starts at minus half the extent and strictly increases. Step n, which the loops never reach, would be plus half the extent, so the last vertex is one step short of it. |
| `Spectrogram3D.InitializeIndices` | Source/Visualizers/Spectrogram3D.cpp:179-197 | There are 6 (X - 1)(Z - 1) indices, all naming existing vertices. Cell (z, x) has its two triangles at position 6 (z (X - 1) + x). |
| `Spectrogram3D.AppendRow` | Source/Visualizers/Spectrogram3D.cpp:186-195 | Appending a row of cells keeps the earlier cells in place, places the new ones, and keeps every index inside the grid. |
| `Spectrogram3D.QuadCoversCell` | Source/Visualizers/Spectrogram3D.cpp:188-194 | A cell's six indices are exactly its four corners. Its two triangles share the diagonal from the corner after the first to the corner one row up. |
| `Spectrogram3D.ScrollHeights` | Source/Visualizers/Spectrogram3D.cpp:98-110 | The downward loop gives the first row the new levels and every later vertex the height the vertex one row earlier had before the frame, which is a one-row scroll. |
| `Spectrogram3D.RenderHeights` | Source/Visualizers/Spectrogram3D.cpp:94-112 | A frame changes only heights. The new heights are the old heights scrolled back by one row, with the newest levels in front. |
| `Spectrogram3D.ScrollTwice` | Source/Visualizers/Spectrogram3D.cpp:99-110 | After two frames the first row holds the newest levels, the second row the previous ones, and the rest is the old heights two rows back. |

## Left out

- LockFreeQueue.TryEmplace, and likewise AbstractRingBuffer.Read and AbstractRingBuffer.Write: atomics and memory ordering are not modelled. The acquire/release loads and stores of `AbstractRingBuffer.h:88-153` and `LockFreeQueue.h`, and the cache-line padding of the queue's slots, are not modelled. Each operation is one atomic step on a sequential state. Interleavings of producer and consumer are not explored.
- **Blocking queue operations.** `emplace` and `push` (`LockFreeQueue.h:68-83`, `105-116`) spin until a slot is free. This is the same placement as `TryEmplace` once the wait ends, and a spin has no sequential model. `LockFreeQueue.PushAll` models repeated `try_push`.
- **Raw storage.** The queue's raw allocation and placement `new` are reduced to slots holding `Some(value)` or `None`.
- **Window and FFT.** JUCE's Hann window table and `performFrequencyOnlyForwardTransform` are the parameters `Dsp.window` and `Dsp.transform`. They are assumed only to keep their lengths.
- Filters.LanczosKernel: states only the value 1 at 0. Away from 0, the sinc product of `lanczosKernel` needs `sin` and `pi` and is the parameter `window`. `Filters.LanczosExactAtSamples` assumes only that it vanishes at non-zero whole numbers.
- **Transcendentals and decibels.** `std::log`, `std::exp` and `Decibels::gainToDecibels` are parameters. `NR.Lawful` states the monotonicity and inverse laws of `log` and `exp`.
- **Floating point.** Single- and double-precision rounding is not modelled; values are reals. `Spectrogram.FixedMaxLevel` is the single-precision value of -12 dB, rounded to nine significant digits. `Spectrogram.PeakBin` starts from "no candidate" rather than the lowest float. The two differ only if a bin holds exactly that value, which a magnitude never does.
- `Spectrogram.GetFrequencyInfo`: the dead `10 * log10(...)` assignment at `Spectrogram.cpp:99` is not modelled, because the next line overwrites it.
- `Spectrogram.UpdateData`: the adaptive-level branch at `Spectrogram.cpp:81` is not modelled. `m_adaptativeLevel` starts false (`Spectrogram.h:143`), and no setter in this part of the program turns it on. `setAdaptiveLevel`, `setClipLevel` and `setMaxFrequency` are declared in `Spectrogram.h:40-52`, but their bodies are not part of this model.
- `Spectrogram.UpdateData`: the outcome of `readSamples` is ignored, as `Spectrogram.cpp:49` ignores it. On underrun the previous frame is analysed again and the frame still reports success.
- **The Spectrogram constructor.** `m_maxFFTLevel` is not set by the constructor shown, so `Spectrogram.CreateAnalyzer` takes it as a parameter. The sizes of the ring and the read buffer come from `OpenGLComponent.cpp:9-15` (`readSize * 10` and `readSize`), with `readSize == fftSize` as `Spectrogram.cpp:12` passes it. The repository's constructors disagree in signature between `Spectrogram.h:28`, `Spectrogram.cpp:11` and `Spectrogram3D.cpp:12`; the model follows the `.cpp` body.
- `Spectrogram.CreateAnalyzer`: builds its ring with the corrected `RingBuffer.Create` (storage of 10·fftSize + 1 samples per channel), not with the constructor as written at `RingBuffer.h:33-37` that `OpenGLComponent.cpp:11` calls. The ring as written can copy past its storage once 10·readSize samples have passed through it (`RingBuffer.AsWrittenWriteLeavesStorage`), and that out-of-bounds write has no meaning to model. The analyzer's validity therefore rests on the corrected ring (see Findings).
- `Spectrogram.CreateAnalyzer`, `FrequencyAxis.Create`, `FrequencyAxis.SetResolution` and `FrequencyAxis.Remap`: require a resolution of at least 2. The source asserts only that the map is not empty (`FrequencyAxis.h:96`); with one entry, `i / (n - 1)` is `0 / 0` in floating point (`FrequencyAxis.h:104`), a NaN that real numbers cannot represent.
- **Level field mismatch.** `FrequencyInfo` in `Spectrogram.h:55-60` has `dbLevel` and `normalizedLevel`, but the `.cpp` fills a two-field `{frequency, level}`. The model follows the `.cpp`, and `level` is the normalized value.
- **Colour mapping and OpenGL.** The colour mapping of `Spectrogram3D.cpp:111` (`ColorMap`) and all OpenGL plumbing (buffers, shaders, projection, camera) are left out. So is the 2D spectrogram view.
- `Spectrogram3D.InitializeIndices`: requires X, Z >= 1. With 0, `GLuint` subtraction wraps and the loops would run about 2^32 times. Index arithmetic is otherwise unbounded; the grid of 250 x 250 stays far below 2^32.
- `Filters.LinearFilter`: requires the truncated position to index the signal. Outside it, the source reads out of bounds. The spectrogram always calls it within the spectrum (`Spectrogram.BinPositionWithin`).
- `NormalizedRange.GetNormalizedLog`: requires distinct stored logarithms, but only for a value strictly between the bounds, the one case in which the source divides by the log span (`NormalizedRange.h:63-67`). With equal logarithms that division would be by zero. Under lawful transcendentals, a range ready for the log scale never has equal logarithms (`NormalizedRange.LogBoundsOrdered`).
- `AbstractRingBuffer.Read` / `AbstractRingBuffer.Write`: the operation's reported count is required to pass the source's own `jassert` range check (`AbstractRingBuffer.h:105`, `142`) rather than modelling a failed assertion.
- `RingBuffer.WriteSamples`: the block is required to have no more channels than the ring. `RingBuffer.h:43-54` loops over the block's channels without checking, so a wider block reaches JUCE's channel-index `jassert` in `copyFrom`. That assertion is not modelled, as for `AbstractRingBuffer.Read` and `AbstractRingBuffer.Write`.
- `RingBuffer.ReadSamples`: likewise, the output buffer is required to have no more channels than the ring, since `RingBuffer.h:63-73` reads ring channel i for every output channel i, and a wider buffer reaches the channel-index `jassert` of `getReadPointer`. For the same kind of reason, the released count `(blockSize1 + blockSize2) * (1 - overlapRatio)` (`RingBuffer.h:75`) is required to lie between 0 and the FIFO size whenever enough samples are ready. This excludes an `overlapRatio` above 1 that makes the count negative, and one below 0 that releases more than the FIFO holds. Such inputs trip the `jassert` at `AbstractRingBuffer.h:105` rather than being modelled.
- **Rendering order.** `Spectrogram3D.RenderHeights` takes the analyzer state after `updateData`. The call order within one `render` is followed, but the repeated per-frame calls of `render` are not modelled.
- **Remaining accessors.** `getMin`, `getMax` (`NormalizedRange.h:29-37`) and `getTotalSize` (`AbstractRingBuffer.cpp:22-25`) are plain field reads. `FrequencyAxis.At` and `FrequencyAxis.GetResolution` are likewise plain reads and have no row.

## Findings

| source | as written | input that shows it | evidently intended | confidence | as-written member | corrected member |
|---|---|---|---|---|---|---|
| Source/Utilities/RingBuffer.h:33-37 | The audio storage has `bufferSize` samples per channel, but the FIFO manages `bufferSize + 1` positions, so position `bufferSize` can be handed out. | `bufferSize = 1`: write 1 sample, read 1, write 1. The second write copies to index 1 of a 1-sample channel. | Storage of `bufferSize + 1` samples, one per FIFO position. | medium, not executed | `RingBuffer.AsWrittenWriteLeavesStorage` (on `RingBuffer.CreateAsWritten`) | `RingBuffer.WriteStaysInStorage` (on `RingBuffer.Create`) |
| Source/Utilities/RingBuffer.h:79-87 | `setVirtualSize` compares `readSize * chunkCount` with `getTotalSize()`, which is always that value plus one. | A ring already set to `readSize * chunkCount + 1` positions with samples ready: calling it again with the same arguments resets the FIFO and drops them. | Compare `readSize * chunkCount + 1` with the total size, so that re-applying the current size is a no-op. | medium, not executed | `RingBuffer.AsWrittenSetVirtualSizeDiscards` (on `RingBuffer.SetVirtualSizeAsWritten`) | `RingBuffer.SetVirtualSize` |

=== FILE: abstract_ring_buffer.dfy ===
/** The virtual single-reader single-writer FIFO: index bookkeeping only, no data.
    The two atomics of the original are plain fields of one sequential state;
    `head` is the read position and `tail` the write position. */
module AbstractRingBuffer {
  import opened MathUtil

  datatype Fifo = Fifo(size: int, head: int, tail: int)

  /** Both positions lie inside the managed total size. */
  predicate Valid(f: Fifo) {
    f.size > 0 && 0 <= f.head < f.size && 0 <= f.tail < f.size
  }

  /** Where a read or write takes place: at most two contiguous ranges, the
      second one always starting at index 0. */
  datatype OperationResult = OperationResult(startIndex1: int, blockSize1: int, startIndex2: int, blockSize2: int)

  /** An operation that handles both ranges completely and reports their total
      size, as the sample ring's write does. */
  function WholeBlock(): OperationResult -> int {
    (r: OperationResult) => r.blockSize1 + r.blockSize2
  }

  /** The result of a request for nothing: two empty ranges at index 0. */
  const NoRanges: OperationResult := OperationResult(0, 0, 0, 0)

  /** Buffer index of the `k`-th element of the block described by `r`. */
  function SlotOf(r: OperationResult, k: int): int {
    if k < r.blockSize1 then r.startIndex1 + k else r.startIndex2 + (k - r.blockSize1)
  }

  /** Buffer position `k` places after `from`, going round the ring. */
  function Advance(f: Fifo, from: int, k: int): (p: int)
    requires f.size > 0 && 0 <= from < f.size && 0 <= k < f.size
    ensures 0 <= p < f.size
  {
    Wrap(from + k, f.size)
  }

  function Create(capacity: int): (f: Fifo)
    requires capacity > 0
    ensures Valid(f) && f.size == capacity
    ensures NumReady(f) == 0 && FreeSpace(f) == capacity - 1
  {
    Fifo(capacity, 0, 0)
  }

  /** Clears the positions and then changes the managed total size. */
  function SetTotalSize(f: Fifo, capacity: int): (r: Fifo)
    requires Valid(f) && capacity > 0
    ensures Valid(r) && r.size == capacity
    ensures NumReady(r) == 0 && FreeSpace(r) == capacity - 1
  {
    Reset(f).(size := capacity)
  }

  /** Number of items that can be read: the distance from head forward to tail. */
  function NumReady(f: Fifo): (n: int)
    requires Valid(f)
    ensures 0 <= n <= f.size - 1
    ensures Advance(f, f.head, n) == f.tail
    ensures n == 0 <==> f.head == f.tail
  {
    if f.tail >= f.head then f.tail - f.head else f.size - (f.head - f.tail)
  }

  /** Number of items that can be written; one slot is always kept free. */
  function FreeSpace(f: Fifo): (n: int)
    requires Valid(f)
    ensures 0 <= n && NumReady(f) + n == f.size - 1
    ensures n == 0 <==> (f.size == 1 || Advance(f, f.tail, 1) == f.head)
  {
    f.size - NumReady(f) - 1
  }

  function Reset(f: Fifo): (r: Fifo)
    requires f.size > 0
    ensures Valid(r) && r.size == f.size
    ensures NumReady(r) == 0 && FreeSpace(r) == f.size - 1
  {
    Fifo(f.size, 0, 0)
  }

  /** Splits a request of `blockSize` items starting at `firstIndex` into the
      part up to the end of the buffer and the part that wraps to index 0,
      the latter bounded by `lastIndex`. */
  function GenerateResult(f: Fifo, firstIndex: int, lastIndex: int, blockSize: int): (r: OperationResult)
    requires Valid(f) && 0 <= firstIndex < f.size && 0 <= lastIndex < f.size
    ensures blockSize <= 0 ==> r == NoRanges
    ensures 0 < blockSize ==> r.startIndex1 == firstIndex && r.startIndex2 == 0
    ensures 0 <= r.blockSize1 && 0 <= r.blockSize2 && r.blockSize2 <= lastIndex
    ensures r.startIndex1 + r.blockSize1 <= f.size
    ensures 0 < blockSize <= f.size - firstIndex + lastIndex ==> r.blockSize1 + r.blockSize2 == blockSize
  {
    if blockSize <= 0 then
      NoRanges
    else
      var blockSize1 := Min(f.size - firstIndex, blockSize);
      var rest := blockSize - blockSize1;
      OperationResult(firstIndex, blockSize1, 0, if rest <= 0 then 0 else Min(rest, lastIndex))
  }

  /** The outcome of a read or write: whether it took place, and the new state. */
  datatype Outcome = Outcome(ok: bool, fifo: Fifo)

  /** A full read: fails untouched when more items are requested than are ready;
      otherwise hands the two ranges to `readOperation` and moves the head by the
      count the operation reports. */
  function Read(f: Fifo, numToRead: int, readOperation: OperationResult -> int): (r: Outcome)
    requires Valid(f)
    requires numToRead <= NumReady(f) ==>
      0 <= readOperation(GenerateResult(f, f.head, f.tail, numToRead)) <= f.size
    ensures Valid(r.fifo) && r.fifo.size == f.size && r.fifo.tail == f.tail
    ensures !r.ok <==> numToRead > NumReady(f)
    ensures !r.ok ==> r.fifo == f
    ensures r.ok ==> r.fifo.head == Wrap(f.head + readOperation(GenerateResult(f, f.head, f.tail, numToRead)), f.size)
    ensures r.ok && readOperation(GenerateResult(f, f.head, f.tail, numToRead)) <= NumReady(f) ==>
      NumReady(r.fifo) == NumReady(f) - readOperation(GenerateResult(f, f.head, f.tail, numToRead))
  {
    var head := f.head;
    var tail := f.tail;
    var numReady := if tail >= head then tail - head else f.size - (head - tail);
    if numToRead > numReady then
      Outcome(false, f)
    else
      var numRead := readOperation(GenerateResult(f, head, tail, numToRead));
      Outcome(true, f.(head := Wrap(head + numRead, f.size)))
  }

  /** A full write: fails untouched when more items are offered than there is
      free space; otherwise hands the two ranges to `writeOperation` and moves
      the tail by the count the operation reports. */
  function Write(f: Fifo, numToWrite: int, writeOperation: OperationResult -> int): (r: Outcome)
    requires Valid(f)
    requires numToWrite <= FreeSpace(f) ==>
      0 <= writeOperation(GenerateResult(f, f.tail, f.head, numToWrite)) < f.size
    ensures Valid(r.fifo) && r.fifo.size == f.size && r.fifo.head == f.head
    ensures !r.ok <==> numToWrite > FreeSpace(f)
    ensures !r.ok ==> r.fifo == f
    ensures r.ok ==> r.fifo.tail == Wrap(f.tail + writeOperation(GenerateResult(f, f.tail, f.head, numToWrite)), f.size)
    ensures r.ok && writeOperation(GenerateResult(f, f.tail, f.head, numToWrite)) <= FreeSpace(f) ==>
      NumReady(r.fifo) == NumReady(f) + writeOperation(GenerateResult(f, f.tail, f.head, numToWrite))
  {
    var tail := f.tail;
    var head := f.head;
    var freeSpace := (if tail >= head then f.size - (tail - head) else head - tail) - 1;
    if numToWrite > freeSpace then
      Outcome(false, f)
    else
      var numWritten := writeOperation(GenerateResult(f, tail, head, numToWrite));
      Outcome(true, f.(tail := Wrap(tail + numWritten, f.size)))
  }

  /** Advancing twice is advancing by the sum, as long as the ring is not lapped. */
  lemma AdvanceAdd(f: Fifo, from: int, a: int, b: int)
    requires f.size > 0 && 0 <= from < f.size && 0 <= a && 0 <= b && a + b < f.size
    ensures Advance(f, Advance(f, from, a), b) == Advance(f, from, a + b)
  {
  }

  /** `r` describes `n` items starting at buffer position `from`: two ranges
      inside the buffer, the second starting at 0, whose `k`-th item sits `k`
      places after `from`. */
  predicate Splits(f: Fifo, r: OperationResult, from: int, n: int)
    requires Valid(f) && 0 <= from < f.size && 0 <= n < f.size
  {
    && r.blockSize1 + r.blockSize2 == n
    && 0 <= r.startIndex1 && 0 <= r.blockSize1 && r.startIndex2 == 0 && 0 <= r.blockSize2
    && r.startIndex1 + r.blockSize1 <= f.size
    && (n > 0 ==> r.startIndex1 == from)
    && (forall k :: 0 <= k < n ==> SlotOf(r, k) == Advance(f, from, k))
  }

  /** A request no larger than the ready count is split into two ranges that
      cover exactly the oldest `n` ready positions, in FIFO order, and that
      wrap only when the ready items do. */
  lemma ReadRangesCoverReady(f: Fifo, n: int)
    requires Valid(f) && 0 <= n <= NumReady(f)
    ensures var r := GenerateResult(f, f.head, f.tail, n);
      && Splits(f, r, f.head, n)
      && (r.blockSize2 > 0 ==> f.tail < f.head)
  {
    var r := GenerateResult(f, f.head, f.tail, n);
    forall k | 0 <= k < n
      ensures SlotOf(r, k) == Advance(f, f.head, k)
    {
    }
  }

  /** A request no larger than the free space is split into two ranges that
      cover exactly the `n` free positions after the tail; the wrapped part
      stays below the head. */
  lemma WriteRangesCoverFree(f: Fifo, n: int)
    requires Valid(f) && 0 <= n <= FreeSpace(f)
    ensures var r := GenerateResult(f, f.tail, f.head, n);
      && Splits(f, r, f.tail, n)
      && (r.blockSize2 > 0 ==> r.blockSize2 < f.head <= f.tail)
  {
    var r := GenerateResult(f, f.tail, f.head, n);
    forall k | 0 <= k < n
      ensures SlotOf(r, k) == Advance(f, f.tail, k)
    {
    }
  }

  /** A successful read moves the head by the reported count modulo the total size. */
  lemma {:induction false} ReadAdvancesHeadModulo(f: Fifo, numToRead: int, readOperation: OperationResult -> int)
    requires Valid(f) && numToRead <= NumReady(f)
    requires 0 <= readOperation(GenerateResult(f, f.head, f.tail, numToRead)) <= f.size
    ensures Read(f, numToRead, readOperation).fifo.head
      == (f.head + readOperation(GenerateResult(f, f.head, f.tail, numToRead))) % f.size
  {
    WrapIsMod(f.head + readOperation(GenerateResult(f, f.head, f.tail, numToRead)), f.size);
  }

  /** A successful write moves the tail by the reported count modulo the total size. */
  lemma {:induction false} WriteAdvancesTailModulo(f: Fifo, numToWrite: int, writeOperation: OperationResult -> int)
    requires Valid(f) && numToWrite <= FreeSpace(f)
    requires 0 <= writeOperation(GenerateResult(f, f.tail, f.head, numToWrite)) < f.size
    ensures Write(f, numToWrite, writeOperation).fifo.tail
      == (f.tail + writeOperation(GenerateResult(f, f.tail, f.head, numToWrite))) % f.size
  {
    WrapIsMod(f.tail + writeOperation(GenerateResult(f, f.tail, f.head, numToWrite)), f.size);
  }

  /** A write within the free space whose operation reports every item it was
      handed moves the tail past exactly those items. */
  lemma WriteMovesTail(f: Fifo, n: int, writeOperation: OperationResult -> int)
    requires Valid(f) && 0 <= n <= FreeSpace(f)
    requires writeOperation(GenerateResult(f, f.tail, f.head, n)) == n
    ensures var w := Write(f, n, writeOperation);
      w.ok && w.fifo == f.(tail := Wrap(f.tail + n, f.size)) && NumReady(w.fifo) == NumReady(f) + n
  {
  }

  /** A read within the ready count whose operation reports every item it was
      handed moves the head past exactly those items. */
  lemma ReadMovesHead(f: Fifo, n: int, readOperation: OperationResult -> int)
    requires Valid(f) && 0 <= n <= NumReady(f)
    requires readOperation(GenerateResult(f, f.head, f.tail, n)) == n
    ensures var rd := Read(f, n, readOperation);
      rd.ok && rd.fifo == f.(head := Wrap(f.head + n, f.size)) && NumReady(rd.fifo) == NumReady(f) - n
  {
  }

  /** The two ranges of a request that fits always add up to the request. */
  lemma CountIsRequest(f: Fifo, firstIndex: int, lastIndex: int, n: int)
    requires Valid(f) && 0 <= firstIndex < f.size && 0 <= lastIndex < f.size
    requires 0 <= n <= f.size - firstIndex + lastIndex
    ensures var r := GenerateResult(f, firstIndex, lastIndex, n);
      r.blockSize1 + r.blockSize2 == n
  {
  }

  /** Writing `n` items into an empty FIFO and then reading them all back, each
      operation reporting every item it was handed, leaves the FIFO empty again. */
  lemma {:induction false} WriteThenReadEmpties(f: Fifo, n: int)
    requires Valid(f) && NumReady(f) == 0 && 0 <= n <= FreeSpace(f)
    ensures var w := Write(f, n, WholeBlock());
      var rd := Read(w.fifo, n, WholeBlock());
      && w.ok && rd.ok && NumReady(rd.fifo) == 0 && rd.fifo.head == rd.fifo.tail
  {
    CountIsRequest(f, f.tail, f.head, n);
    WriteMovesTail(f, n, WholeBlock());
    var w := Write(f, n, WholeBlock());
    CountIsRequest(w.fifo, w.fifo.head, w.fifo.tail, n);
    ReadMovesHead(w.fifo, n, WholeBlock());
  }
}

=== FILE: filters.dfy ===
/** Resampling filters: Lanczos windowed-sinc interpolation and linear
    interpolation between neighbouring samples. */
module Filters {
  import opened MathUtil

  /** The Lanczos kernel. Away from 0 its value comes from `window`, which
      stands for the sinc-product formula; at 0 the kernel is exactly 1. */
  function LanczosKernel(window: (real, int) -> real, x: real, size: int): (k: real)
    ensures x == 0.0 ==> k == 1.0
  {
    if x != 0.0 then window(x, size) else 1.0
  }

  /** A window that vanishes at every non-zero whole number, as the
      sinc-product formula does. */
  ghost predicate Interpolating(window: (real, int) -> real, size: int) {
    forall k: real :: k != 0.0 && k.Floor as real == k ==> window(k, size) == 0.0
  }

  /** The contribution of sample `i`: its weighted value when it lies inside
      the signal, nothing otherwise. */
  function Term(vec: seq<real>, window: (real, int) -> real, x: real, wsize: int, i: int): real {
    if 0 <= i < |vec| then vec[i] * LanczosKernel(window, x - i as real, wsize) else 0.0
  }

  /** The sum of the contributions of samples `lo` up to, not including, `hi`. */
  function WindowSum(vec: seq<real>, window: (real, int) -> real, x: real, wsize: int, lo: int, hi: int): real
    decreases hi - lo
  {
    if hi <= lo then 0.0 else WindowSum(vec, window, x, wsize, lo, hi - 1) + Term(vec, window, x, wsize, hi - 1)
  }

  /** The first and one-past-last sample of the window around `x`. */
  function WindowStart(x: real, wsize: int): int {
    FloorToNInf(x) - wsize + 1
  }

  function WindowEnd(x: real, wsize: int): int {
    FloorToNInf(x) + wsize + 1
  }

  /** The Lanczos-filtered value of `vec` at `x`: the weighted samples from
      `floor(x) - wsize + 1` to `floor(x) + wsize`, skipping those outside the signal. */
  method LanczosFilter(vec: seq<real>, window: (real, int) -> real, x: real, wsize: int) returns (resonance: real)
    ensures resonance == WindowSum(vec, window, x, wsize, WindowStart(x, wsize), WindowEnd(x, wsize))
  {
    resonance := 0.0;
    var start := FloorToNInf(x);
    var i := start - wsize + 1;
    while i < start + wsize + 1
      invariant i == WindowStart(x, wsize) || WindowStart(x, wsize) <= i <= WindowEnd(x, wsize)
      invariant resonance == WindowSum(vec, window, x, wsize, WindowStart(x, wsize), i)
    {
      if i >= 0 && i < |vec| {
        var impulse := vec[i];
        var response := LanczosKernel(window, x - i as real, wsize);
        resonance := resonance + impulse * response;
      }
      i := i + 1;
    }
  }

  /** Linear interpolation between the sample at the truncated position and
      the next one (or the same one at the end of the signal). */
  function LinearFilter(vec: seq<real>, x: real): (r: real)
    requires 0 <= Trunc(x) < |vec|
    ensures 0.0 <= x ==> Between(r, vec[Trunc(x)], vec[Min(|vec| - 1, Trunc(x) + 1)])
    ensures x == Trunc(x) as real ==> r == vec[Trunc(x)]
    ensures vec[Trunc(x)] != vec[Min(|vec| - 1, Trunc(x) + 1)] ==>
      Unlerp(r, vec[Trunc(x)], vec[Min(|vec| - 1, Trunc(x) + 1)]) == x - Trunc(x) as real
  {
    var x1 := Trunc(x);
    var x2 := Min(|vec| - 1, x1 + 1);
    var frac := x - x1 as real;
    ConvexFacts(vec[x1], vec[x2], frac);
    Convex(vec[x1], vec[x2], frac)
  }

  /** The weighted mean `a * (1 - f) + b * f` of two samples. */
  function Convex(a: real, b: real, f: real): real {
    a * (1.0 - f) + b * f
  }

  predicate Between(v: real, a: real, b: real) {
    (a <= v <= b) || (b <= v <= a)
  }

  /** Between two neighbouring samples the filter is a straight line: two
      positions with the same truncated position differ in value by their
      distance times the step between the two samples. */
  lemma LinearFilterSlope(vec: seq<real>, x: real, y: real)
    requires 0 <= Trunc(x) < |vec| && Trunc(y) == Trunc(x)
    ensures LinearFilter(vec, y) - LinearFilter(vec, x)
      == (y - x) * (vec[Min(|vec| - 1, Trunc(x) + 1)] - vec[Trunc(x)])
  {
  }

  // ---------------------------------------------------------------------------
  // Properties

  /** The convex combination the filter computes is the affine map from the
      first sample to the second. */
  lemma ConvexIsLerp(a: real, b: real, f: real)
    ensures Convex(a, b, f) == Lerp(f, a, b)
  {
  }

  /** The convex combination lies between its two samples for a fraction in
      [0, 1], is the first sample at fraction 0, and gives its fraction back
      when the samples differ. */
  lemma ConvexFacts(a: real, b: real, f: real)
    ensures 0.0 <= f <= 1.0 ==> Between(Convex(a, b, f), a, b)
    ensures f == 0.0 ==> Convex(a, b, f) == a
    ensures a != b ==> Unlerp(Convex(a, b, f), a, b) == f
  {
    ConvexIsLerp(a, b, f);
    if 0.0 <= f <= 1.0 {
      LerpBetween(f, a, b);
    }
    if a != b {
      UnlerpLerp(f, a, b);
    }
  }

  lemma LerpDescending(p: real, a: real, b: real)
    requires 0.0 <= p <= 1.0 && b < a
    ensures b <= Lerp(p, a, b) <= a
  {
    assert Lerp(p, a, b) == Lerp(1.0 - p, b, a);
    LerpWithin(1.0 - p, b, a);
  }

  lemma LerpBetween(p: real, a: real, b: real)
    requires 0.0 <= p <= 1.0
    ensures Between(Lerp(p, a, b), a, b)
  {
    if a < b {
      LerpWithin(p, a, b);
    } else if b < a {
      LerpDescending(p, a, b);
    }
  }

  /** The sum over a range splits at any point inside it. */
  lemma {:induction false} WindowSumSplit(vec: seq<real>, window: (real, int) -> real, x: real, wsize: int, lo: int, mid: int, hi: int)
    requires lo <= mid <= hi
    ensures WindowSum(vec, window, x, wsize, lo, hi)
         == WindowSum(vec, window, x, wsize, lo, mid) + WindowSum(vec, window, x, wsize, mid, hi)
    decreases hi - mid
  {
    if mid < hi {
      WindowSumSplit(vec, window, x, wsize, lo, mid, hi - 1);
    }
  }

  /** Only samples inside both the window and the signal affect the result:
      two signals that agree there filter to the same value. */
  lemma {:induction false} WindowSumReadsOnlyWindow(vec: seq<real>, vec': seq<real>, window: (real, int) -> real, x: real, wsize: int, lo: int, hi: int)
    requires |vec| == |vec'|
    requires forall i :: lo <= i < hi && 0 <= i < |vec| ==> vec[i] == vec'[i]
    ensures WindowSum(vec, window, x, wsize, lo, hi) == WindowSum(vec', window, x, wsize, lo, hi)
    decreases hi - lo
  {
    if lo < hi {
      WindowSumReadsOnlyWindow(vec, vec', window, x, wsize, lo, hi - 1);
    }
  }

  /** With an interpolating window, every sample other than the one at `j`
      contributes nothing to the sum at `x == j`. */
  lemma {:induction false} WindowSumAwayFromSample(vec: seq<real>, window: (real, int) -> real, j: int, wsize: int, lo: int, hi: int)
    requires Interpolating(window, wsize)
    requires hi <= j || j < lo
    ensures WindowSum(vec, window, j as real, wsize, lo, hi) == 0.0
    decreases hi - lo
  {
    if lo < hi {
      WindowSumAwayFromSample(vec, window, j, wsize, lo, hi - 1);
      var k := j as real - (hi - 1) as real;
      assert k == (j - (hi - 1)) as real;
      assert window(k, wsize) == 0.0;
    }
  }

  /** With an interpolating window, filtering at a sample position returns
      that sample exactly. */
  lemma LanczosExactAtSamples(vec: seq<real>, window: (real, int) -> real, j: int, wsize: int)
    requires Interpolating(window, wsize) && wsize >= 1 && 0 <= j < |vec|
    ensures WindowSum(vec, window, j as real, wsize, WindowStart(j as real, wsize), WindowEnd(j as real, wsize)) == vec[j]
  {
    var lo := WindowStart(j as real, wsize);
    var hi := WindowEnd(j as real, wsize);
    assert FloorToNInf(j as real) == j;
    WindowSumSplit(vec, window, j as real, wsize, lo, j + 1, hi);
    WindowSumSplit(vec, window, j as real, wsize, lo, j, j + 1);
    WindowSumAwayFromSample(vec, window, j, wsize, lo, j);
    WindowSumAwayFromSample(vec, window, j, wsize, j + 1, hi);
  }
}

=== FILE: frequency_axis.dfy ===
/** A discrete frequency axis: `resolution` values spread over a range either
    evenly (linear) or evenly on a logarithmic scale. */
module FrequencyAxis {
  import opened MathUtil
  import NR = NormalizedRange

  datatype Distribution = Linear | Logarithmic

  datatype Axis = Axis(frequencyMap: seq<real>, frequencyRange: NR.Range, distribution: Distribution)

  /** How far along the axis index `i` of `n` lies: `i / (n - 1)`. */
  function Fraction(i: int, n: int): real
    requires n >= 2
  {
    i as real / (n - 1) as real
  }

  /** The values of an axis of `n` entries for a distribution. The linear
      distribution yields the fractions themselves, whatever the range; the
      logarithmic one maps each fraction through the range's log scale. */
  function Remap(t: NR.Transcendentals, range: NR.Range, distribution: Distribution, n: int): (m: seq<real>)
    requires n >= 2
    ensures |m| == n
  {
    match distribution
    case Linear => seq(n, i requires 0 <= i < n => Fraction(i, n))
    case Logarithmic => seq(n, i requires 0 <= i < n => NR.GetLogValue(t, range, Fraction(i, n)))
  }

  /** The stored values are those the current range, distribution and
      resolution produce. */
  predicate Valid(t: NR.Transcendentals, a: Axis) {
    |a.frequencyMap| >= 2 && a.frequencyMap == Remap(t, a.frequencyRange, a.distribution, |a.frequencyMap|)
  }

  /** The constructor: `resolution` values over [minValue, maxValue], logarithmic. */
  function Create(t: NR.Transcendentals, resolution: int, minValue: real, maxValue: real): (a: Axis)
    requires resolution >= 2 && minValue < maxValue
    ensures Valid(t, a)
    ensures GetResolution(a) == resolution
    ensures a.distribution == Logarithmic
    ensures a.frequencyRange.minValue == minValue && a.frequencyRange.maxValue == maxValue
    ensures 0.0 < minValue ==> NR.LogReady(t, a.frequencyRange)
  {
    var range := NR.Create(t, minValue, maxValue);
    Axis(Remap(t, range, Logarithmic, resolution), range, Logarithmic)
  }

  /** Switches the distribution, recomputing the values only when it changes. */
  function SetDistribution(t: NR.Transcendentals, a: Axis, distribution: Distribution): (a': Axis)
    requires Valid(t, a)
    ensures Valid(t, a')
    ensures a'.distribution == distribution
    ensures a'.frequencyRange == a.frequencyRange && GetResolution(a') == GetResolution(a)
    ensures distribution == a.distribution ==> a' == a
  {
    if distribution != a.distribution then
      a.(distribution := distribution, frequencyMap := Remap(t, a.frequencyRange, distribution, |a.frequencyMap|))
    else
      a
  }

  /** Resizes the axis, recomputing the values only when the size changes. */
  function SetResolution(t: NR.Transcendentals, a: Axis, resolution: int): (a': Axis)
    requires Valid(t, a) && resolution >= 2
    ensures Valid(t, a')
    ensures GetResolution(a') == resolution
    ensures a'.distribution == a.distribution && a'.frequencyRange == a.frequencyRange
    ensures resolution == GetResolution(a) ==> a' == a
  {
    if resolution != |a.frequencyMap| then
      a.(frequencyMap := Remap(t, a.frequencyRange, a.distribution, resolution))
    else
      a
  }

  function GetResolution(a: Axis): int {
    |a.frequencyMap|
  }

  /** The value at an index of the axis. */
  function At(a: Axis, index: int): real
    requires 0 <= index < |a.frequencyMap|
  {
    a.frequencyMap[index]
  }

  // ---------------------------------------------------------------------------
  // Properties

  lemma FractionEndpoints(n: int)
    requires n >= 2
    ensures Fraction(0, n) == 0.0 && Fraction(n - 1, n) == 1.0
  {
  }

  lemma FractionStrictlyIncreasing(i: int, j: int, n: int)
    requires i < j && n >= 2
    ensures Fraction(i, n) < Fraction(j, n)
  {
    QuotientStrictlyIncreasing(i as real, j as real, (n - 1) as real);
  }

  lemma QuotientStrictlyIncreasing(a: real, b: real, d: real)
    requires a < b && 0.0 < d
    ensures a / d < b / d
  {
    assert b / d - a / d == (b - a) / d;
  }

  lemma FractionWithin(i: int, n: int)
    requires 0 <= i < n && n >= 2
    ensures 0.0 <= Fraction(i, n) <= 1.0
  {
    FractionEndpoints(n);
    if 0 < i {
      FractionStrictlyIncreasing(0, i, n);
    }
    if i < n - 1 {
      FractionStrictlyIncreasing(i, n - 1, n);
    }
  }

  predicate StrictlyIncreasing(s: seq<real>) {
    forall i, j :: 0 <= i < j < |s| ==> s[i] < s[j]
  }

  /** A linear axis runs from 0 to 1 in strictly increasing steps and does not
      depend on the range at all. */
  lemma {:induction false} LinearAxisIsUnitInterval(t: NR.Transcendentals, a: Axis, other: NR.Range)
    requires Valid(t, a) && a.distribution == Linear
    ensures At(a, 0) == 0.0 && At(a, GetResolution(a) - 1) == 1.0
    ensures StrictlyIncreasing(a.frequencyMap)
    ensures a.frequencyMap == Remap(t, other, Linear, GetResolution(a))
  {
    var n := GetResolution(a);
    FractionEndpoints(n);
    forall i, j | 0 <= i < j < n
      ensures a.frequencyMap[i] < a.frequencyMap[j]
    {
      FractionStrictlyIncreasing(i, j, n);
    }
  }

  /** Under lawful transcendentals a logarithmic axis over a positive range
      starts at its minimum, ends at its maximum and increases strictly. */
  lemma {:induction false} LogAxisSpansRange(t: NR.Transcendentals, a: Axis)
    requires Valid(t, a) && a.distribution == Logarithmic
    requires NR.Lawful(t) && NR.LogReady(t, a.frequencyRange)
    ensures At(a, 0) == a.frequencyRange.minValue
    ensures At(a, GetResolution(a) - 1) == a.frequencyRange.maxValue
    ensures StrictlyIncreasing(a.frequencyMap)
  {
    var n := GetResolution(a);
    FractionEndpoints(n);
    NR.LogValueEndpoints(t, a.frequencyRange);
    forall i, j | 0 <= i < j < n
      ensures a.frequencyMap[i] < a.frequencyMap[j]
    {
      FractionStrictlyIncreasing(i, j, n);
      NR.LogValueIncreasing(t, a.frequencyRange, Fraction(i, n), Fraction(j, n));
    }
  }

  /** Neighbouring fractions are `1 / (n - 1)` apart. */
  lemma FractionStep(i: int, n: int)
    requires n >= 2
    ensures Fraction(i + 1, n) - Fraction(i, n) == 1.0 / (n - 1) as real
  {
    var d := (n - 1) as real;
    assert (i + 1) as real / d - i as real / d == ((i + 1) as real - i as real) / d;
  }

  /** The values of a linear axis are the fractions `i / (n - 1)`, so
      neighbouring values are the same distance `1 / (n - 1)` apart. */
  lemma LinearAxisEvenSteps(t: NR.Transcendentals, a: Axis, i: int)
    requires Valid(t, a) && a.distribution == Linear
    requires 0 <= i < GetResolution(a) - 1
    ensures At(a, i) == Fraction(i, GetResolution(a))
    ensures At(a, i + 1) - At(a, i) == 1.0 / (GetResolution(a) - 1) as real
  {
    FractionStep(i, GetResolution(a));
  }

  /** Under lawful transcendentals the logarithm of the value at index `i` of a
      logarithmic axis lies the fraction `i / (n - 1)` of the way between the
      logarithms of the bounds, so neighbouring values are the same distance
      apart on the log scale: the axis is evenly spaced in log frequency. */
  lemma LogAxisEvenSteps(t: NR.Transcendentals, a: Axis, i: int)
    requires Valid(t, a) && a.distribution == Logarithmic && NR.Lawful(t)
    requires 0 <= i < GetResolution(a) - 1
    ensures t.log(At(a, i)) == Lerp(Fraction(i, GetResolution(a)),
                                     a.frequencyRange.minLogValue, a.frequencyRange.maxLogValue)
    ensures t.log(At(a, i + 1)) - t.log(At(a, i))
         == (a.frequencyRange.maxLogValue - a.frequencyRange.minLogValue) / (GetResolution(a) - 1) as real
  {
    var n, lo, hi := GetResolution(a), a.frequencyRange.minLogValue, a.frequencyRange.maxLogValue;
    FractionStep(i, n);
    LerpStep(Fraction(i, n), Fraction(i + 1, n), lo, hi);
    assert (1.0 / (n - 1) as real) * (hi - lo) == (hi - lo) / (n - 1) as real;
  }
}

=== FILE: lock_free_queue.dfy ===
/** The bounded single-producer single-consumer queue. The producer writes at
    `head`, the consumer reads at `tail`; one slot always stays unused so that
    a full queue can be told from an empty one. A slot holds a value exactly
    while it is live: placement construction fills it, `Pop` destroys it. */
module LockFreeQueue {
  import opened MathUtil
  import opened Wrappers

  datatype Queue<T> = Queue(capacity: int, slots: seq<Option<T>>, head: int, tail: int)

  /** The exception the constructor throws. */
  datatype QueueError = InvalidArgument

  /** Both positions lie inside the slots. */
  predicate Positioned<T>(q: Queue<T>) {
    q.capacity >= 2 && |q.slots| == q.capacity && 0 <= q.head < q.capacity && 0 <= q.tail < q.capacity
  }

  /** How many places slot `i` lies after the read position. */
  function Distance<T>(q: Queue<T>, i: int): (d: int)
    requires Positioned(q) && 0 <= i < q.capacity
    ensures 0 <= d < q.capacity
    ensures Wrap(q.tail + d, q.capacity) == i
  {
    if i >= q.tail then i - q.tail else i - q.tail + q.capacity
  }

  /** Number of stored elements: the distance from the read position to the
      write position, corrected by the capacity when it comes out negative. */
  function Size<T>(q: Queue<T>): (n: int)
    requires Positioned(q)
    ensures 0 <= n < q.capacity
    ensures n == Distance(q, q.head)
    ensures n == 0 <==> q.head == q.tail
  {
    var diff := q.head - q.tail;
    if diff < 0 then diff + q.capacity else diff
  }

  /** Exactly the slots from the read position up to, not including, the write
      position hold a value. */
  predicate Valid<T>(q: Queue<T>) {
    && Positioned(q)
    && forall i :: 0 <= i < q.capacity ==> (q.slots[i].Some? <==> Distance(q, i) < Size(q))
  }

  /** The stored elements, oldest first. */
  function Items<T>(q: Queue<T>): (s: seq<T>)
    requires Valid(q)
    ensures |s| == Size(q)
  {
    seq(Size(q), k requires 0 <= k < Size(q) => q.slots[Wrap(q.tail + k, q.capacity)].value)
  }

  /** The slot after `i`, going back to 0 after the last one. */
  function NextIndex(i: int, capacity: int): (j: int)
    requires 0 <= i < capacity
    ensures j == Wrap(i + 1, capacity)
  {
    if i + 1 == capacity then 0 else i + 1
  }

  /** A queue of `capacity` slots, or the invalid-argument error for fewer than two. */
  function Create<T>(capacity: int): (r: Result<Queue<T>, QueueError>)
    ensures r.Failure? <==> capacity < 2
    ensures r.Success? ==> Valid(r.value) && r.value.capacity == capacity && Items(r.value) == []
  {
    if capacity < 2 then
      Failure(InvalidArgument)
    else
      Success(Queue(capacity, seq(capacity, _ => None), 0, 0))
  }

  /** Stores `v` behind the last element, or reports failure when the queue is full. */
  function TryEmplace<T>(q: Queue<T>, v: T): (out: (bool, Queue<T>))
    requires Valid(q)
    ensures Valid(out.1) && out.1.capacity == q.capacity
    ensures !out.0 <==> Size(q) == q.capacity - 1
    ensures !out.0 ==> out.1 == q
    ensures out.0 ==> Items(out.1) == Items(q) + [v]
  {
    var nextHead := NextIndex(q.head, q.capacity);
    if nextHead == q.tail then
      (false, q)
    else
      var q' := q.(slots := q.slots[q.head := Some(v)], head := nextHead);
      EmplaceKeepsValid(q, v, q');
      EmplaceAppends(q, v, q');
      (true, q')
  }

  /** The oldest element, or nothing when the queue is empty. */
  function Front<T>(q: Queue<T>): (r: Option<T>)
    requires Valid(q)
    ensures r.None? <==> Items(q) == []
    ensures r.Some? ==> r.value == Items(q)[0]
  {
    if q.head == q.tail then None else Some(q.slots[q.tail].value)
  }

  /** Destroys the oldest element; the queue must not be empty. */
  function Pop<T>(q: Queue<T>): (q': Queue<T>)
    requires Valid(q) && Size(q) > 0
    ensures Valid(q') && q'.capacity == q.capacity
    ensures Items(q') == Items(q)[1..]
  {
    var q' := q.(slots := q.slots[q.tail := None], tail := NextIndex(q.tail, q.capacity));
    PopKeepsValid(q, q');
    PopDropsFirst(q, q');
    q'
  }

  function Empty<T>(q: Queue<T>): (b: bool)
    requires Valid(q)
    ensures b <==> Items(q) == []
  {
    Size(q) == 0
  }

  function Capacity<T>(q: Queue<T>): (c: int)
    requires Valid(q)
    ensures c >= 2 && |Items(q)| <= c - 1
  {
    q.capacity
  }

  /** The destructor's loop: pops while there is a front element. Returns the
      destroyed elements in the order they were destroyed. */
  method Destroy<T>(q0: Queue<T>) returns (destroyed: seq<T>, q: Queue<T>)
    requires Valid(q0)
    ensures destroyed == Items(q0)
    ensures Valid(q) && Items(q) == []
    ensures forall i :: 0 <= i < q.capacity ==> q.slots[i].None?
  {
    q := q0;
    destroyed := [];
    while Front(q).Some?
      invariant Valid(q) && q.capacity == q0.capacity
      invariant destroyed + Items(q) == Items(q0)
      decreases Size(q)
    {
      destroyed := destroyed + [Front(q).value];
      q := Pop(q);
    }
  }

  /** The producer pushing `vs` one after another with `TryEmplace`; the flag
      says whether every push succeeded. */
  function PushAll<T>(q: Queue<T>, vs: seq<T>): (out: (bool, Queue<T>))
    requires Valid(q)
    ensures Valid(out.1) && out.1.capacity == q.capacity
    decreases |vs|
  {
    if vs == [] then
      (true, q)
    else
      var step := TryEmplace(q, vs[0]);
      var rest := PushAll(step.1, vs[1..]);
      (step.0 && rest.0, rest.1)
  }

  /** Pushing no more elements than there is free room never fails, and the
      elements come out in the order they went in. */
  lemma {:induction false} PushAllIsFifo<T>(q: Queue<T>, vs: seq<T>)
    requires Valid(q) && Size(q) + |vs| <= q.capacity - 1
    ensures PushAll(q, vs).0
    ensures Items(PushAll(q, vs).1) == Items(q) + vs
    decreases |vs|
  {
    if vs != [] {
      var step := TryEmplace(q, vs[0]);
      assert step.0;
      PushAllIsFifo(step.1, vs[1..]);
      assert Items(q) + [vs[0]] + vs[1..] == Items(q) + vs;
    }
  }

  /** Once there is no free room left, a further push fails and leaves the queue as it was. */
  lemma PushIntoFullFails<T>(q: Queue<T>, vs: seq<T>, v: T)
    requires Valid(q) && Items(q) == [] && |vs| == q.capacity - 1
    ensures TryEmplace(PushAll(q, vs).1, v) == (false, PushAll(q, vs).1)
  {
    PushAllIsFifo(q, vs);
  }

  // ---------------------------------------------------------------------------
  // Proofs

  lemma EmplaceKeepsValid<T>(q: Queue<T>, v: T, q': Queue<T>)
    requires Valid(q) && NextIndex(q.head, q.capacity) != q.tail
    requires q' == q.(slots := q.slots[q.head := Some(v)], head := NextIndex(q.head, q.capacity))
    ensures Valid(q') && Size(q') == Size(q) + 1
  {
    forall i | 0 <= i < q.capacity
      ensures q'.slots[i].Some? <==> Distance(q', i) < Size(q')
    {
    }
  }

  lemma EmplaceAppends<T>(q: Queue<T>, v: T, q': Queue<T>)
    requires Valid(q) && NextIndex(q.head, q.capacity) != q.tail
    requires q' == q.(slots := q.slots[q.head := Some(v)], head := NextIndex(q.head, q.capacity))
    requires Valid(q') && Size(q') == Size(q) + 1
    ensures Items(q') == Items(q) + [v]
  {
    var n := Size(q);
    forall k | 0 <= k < n + 1
      ensures Items(q')[k] == (Items(q) + [v])[k]
    {
      if k < n {
        assert Wrap(q.tail + k, q.capacity) != q.head;
      }
    }
  }

  lemma PopKeepsValid<T>(q: Queue<T>, q': Queue<T>)
    requires Valid(q) && Size(q) > 0
    requires q' == q.(slots := q.slots[q.tail := None], tail := NextIndex(q.tail, q.capacity))
    ensures Valid(q') && Size(q') == Size(q) - 1
  {
    forall i | 0 <= i < q.capacity
      ensures q'.slots[i].Some? <==> Distance(q', i) < Size(q')
    {
    }
  }

  lemma PopDropsFirst<T>(q: Queue<T>, q': Queue<T>)
    requires Valid(q) && Size(q) > 0
    requires q' == q.(slots := q.slots[q.tail := None], tail := NextIndex(q.tail, q.capacity))
    requires Valid(q') && Size(q') == Size(q) - 1
    ensures Items(q') == Items(q)[1..]
  {
    forall k | 0 <= k < Size(q')
      ensures Items(q')[k] == Items(q)[k + 1]
    {
      assert Wrap(q'.tail + k, q.capacity) == Wrap(q.tail + (k + 1), q.capacity);
    }
  }
}

=== FILE: math_util.dfy ===
/** Numeric helpers shared by the model: the C++ conversions and rounding
    used by the source, written out over unbounded integers and reals. */
module MathUtil {

  /** `std::floor` followed by a cast to `int` (floorToNInf for floating point). */
  function FloorToNInf(x: real): (r: int)
    ensures r as real <= x < r as real + 1.0
  {
    x.Floor
  }

  /** `static_cast<int>` of a floating-point value: truncation toward zero. */
  function Trunc(x: real): (r: int)
    ensures 0.0 <= x ==> r == FloorToNInf(x)
    ensures x < 0.0 ==> r == -FloorToNInf(-x)
    ensures 0.0 <= x ==> 0 <= r
    ensures 0 <= r <==> -1.0 < x
  {
    if x >= 0.0 then x.Floor else -((-x).Floor)
  }

  function Min(a: int, b: int): (r: int)
    ensures r <= a && r <= b
    ensures r == a || r == b
  {
    if a < b then a else b
  }

  function Max(a: int, b: int): (r: int)
    ensures a <= r && b <= r
    ensures r == a || r == b
  {
    if a < b then b else a
  }

  /** A sequence of `n` zeros (a cleared buffer). */
  function Zeros(n: nat): (r: seq<real>)
    ensures |r| == n
    ensures forall i :: 0 <= i < n ==> r[i] == 0.0
  {
    seq(n, _ => 0.0)
  }

  /** A sequence that agrees with `b` on its first `|b|` elements and with `c`
      after them is their concatenation. */
  lemma ConcatByIndex<T>(a: seq<T>, b: seq<T>, c: seq<T>)
    requires |a| == |b| + |c|
    requires forall k :: 0 <= k < |b| ==> a[k] == b[k]
    requires forall k :: |b| <= k < |a| ==> a[k] == c[k - |b|]
    ensures a == b + c
  {
  }

  // The solver reasons about a product of two variables only where it appears
  // literally; the affine maps below are therefore named, and callers reason
  // through the lemmas about the names.

  /** The point at fraction `p` of the way from `lo` to `hi`. */
  function Lerp(p: real, lo: real, hi: real): real {
    p * (hi - lo) + lo
  }

  /** The fraction of the way from `lo` to `hi` at which `x` lies. */
  function Unlerp(x: real, lo: real, hi: real): real
    requires lo != hi
  {
    (x - lo) / (hi - lo)
  }

  lemma LerpEndpoints(lo: real, hi: real)
    ensures Lerp(0.0, lo, hi) == lo
    ensures Lerp(1.0, lo, hi) == hi
  {
  }

  lemma ScaledNonNegative(p: real, lo: real, hi: real)
    requires 0.0 <= p && lo < hi
    ensures 0.0 <= p * (hi - lo)
  {
  }

  lemma ScaledAtMost(p: real, lo: real, hi: real)
    requires p <= 1.0 && lo < hi
    ensures p * (hi - lo) <= hi - lo
  {
  }

  /** Fractions in [0, 1] land in [lo, hi]. */
  lemma LerpWithin(p: real, lo: real, hi: real)
    requires 0.0 <= p <= 1.0 && lo < hi
    ensures lo <= Lerp(p, lo, hi) <= hi
  {
    ScaledNonNegative(p, lo, hi);
    ScaledAtMost(p, lo, hi);
  }

  lemma ScaledStrictlyIncreasing(p: real, q: real, lo: real, hi: real)
    requires p < q && lo < hi
    ensures p * (hi - lo) < q * (hi - lo)
  {
  }

  /** Larger fractions land further along. */
  lemma LerpStrictlyIncreasing(p: real, q: real, lo: real, hi: real)
    requires p < q && lo < hi
    ensures Lerp(p, lo, hi) < Lerp(q, lo, hi)
  {
    ScaledStrictlyIncreasing(p, q, lo, hi);
  }

  /** Two points of the affine map differ by their fractions' difference
      times the span. */
  lemma LerpStep(p: real, q: real, lo: real, hi: real)
    ensures Lerp(q, lo, hi) - Lerp(p, lo, hi) == (q - p) * (hi - lo)
  {
  }

  lemma UnlerpLerp(p: real, lo: real, hi: real)
    requires lo != hi
    ensures Unlerp(Lerp(p, lo, hi), lo, hi) == p
  {
  }

  lemma LerpUnlerp(x: real, lo: real, hi: real)
    requires lo != hi
    ensures Lerp(Unlerp(x, lo, hi), lo, hi) == x
  {
  }

  lemma QuotientPositive(x: real, lo: real, hi: real)
    requires lo < x && lo < hi
    ensures 0.0 < (x - lo) / (hi - lo)
  {
  }

  lemma QuotientBelowOne(x: real, lo: real, hi: real)
    requires x < hi && lo < hi
    ensures (x - lo) / (hi - lo) < 1.0
  {
    var d := hi - lo;
    var q := (x - lo) / d;
    assert q * d == x - lo;
    if q >= 1.0 {
      ProductAtLeast(q, d);
      assert false;
    }
  }

  lemma ProductAtLeast(q: real, d: real)
    requires 1.0 <= q && 0.0 < d
    ensures d <= q * d
  {
  }

  /** Points strictly between `lo` and `hi` lie at fractions strictly inside (0, 1). */
  lemma UnlerpInside(x: real, lo: real, hi: real)
    requires lo < x < hi
    ensures 0.0 < Unlerp(x, lo, hi) < 1.0
  {
    QuotientPositive(x, lo, hi);
    QuotientBelowOne(x, lo, hi);
  }

  /** Reduces an index in [0, 2*m) into [0, m) by one conditional subtraction,
      the way the ring buffers advance their positions. */
  function Wrap(p: int, m: int): (r: int)
    requires m > 0 && 0 <= p < 2 * m
    ensures 0 <= r < m
    ensures r == p || r == p - m
  {
    if p >= m then p - m else p
  }

  lemma WrapIsMod(p: int, m: int)
    requires m > 0 && 0 <= p < 2 * m
    ensures Wrap(p, m) == p % m
  {
    if p >= m {
      assert p == 1 * m + (p - m);
    }
  }
}

=== FILE: normalized_range.dfy ===
/** A closed interval [min, max] that maps normalized positions in [0, 1] to
    values, either linearly or evenly on a logarithmic scale, and back. */
module NormalizedRange {
  import opened MathUtil

  /** The natural logarithm and exponential, supplied by the caller. */
  datatype Transcendentals = Transcendentals(log: real -> real, exp: real -> real)

  /** The laws of `log` and `exp` the model relies on: on positive arguments
      `log` is strictly increasing, `exp` is strictly increasing and positive,
      and the two undo each other. */
  ghost predicate Lawful(t: Transcendentals) {
    && (forall x, y :: 0.0 < x < y ==> t.log(x) < t.log(y))
    && (forall a, b :: a < b ==> t.exp(a) < t.exp(b))
    && (forall v :: 0.0 < v ==> t.exp(t.log(v)) == v)
    && (forall a :: 0.0 < t.exp(a) && t.log(t.exp(a)) == a)
  }

  datatype Range = Range(minValue: real, maxValue: real, minLogValue: real, maxLogValue: real)

  /** The bounds are ordered, as the constructor asserts. */
  predicate Valid(r: Range) {
    r.minValue < r.maxValue
  }

  /** A range whose logarithms can be taken: a positive lower bound, and the
      stored logarithms are those of the bounds. */
  ghost predicate LogReady(t: Transcendentals, r: Range) {
    && Valid(r)
    && 0.0 < r.minValue
    && r.minLogValue == t.log(r.minValue)
    && r.maxLogValue == t.log(r.maxValue)
  }

  /** Replaces both bounds and recomputes their logarithms. */
  function SetMinMax(t: Transcendentals, r: Range, minValue: real, maxValue: real): (r': Range)
    ensures r'.minValue == minValue && r'.maxValue == maxValue
    ensures r'.minLogValue == t.log(minValue) && r'.maxLogValue == t.log(maxValue)
    ensures GetSize(r') == maxValue - minValue
    ensures minValue < maxValue ==> Valid(r')
    ensures minValue < maxValue && 0.0 < minValue ==> LogReady(t, r')
  {
    Range(minValue, maxValue, t.log(minValue), t.log(maxValue))
  }

  /** The constructor; the source asserts that `minValue < maxValue`. */
  function Create(t: Transcendentals, minValue: real, maxValue: real): (r: Range)
    requires minValue < maxValue
    ensures Valid(r) && r.minValue == minValue && r.maxValue == maxValue
    ensures 0.0 < minValue ==> LogReady(t, r)
  {
    SetMinMax(t, Range(0.0, 0.0, 0.0, 0.0), minValue, maxValue)
  }

  function GetSize(r: Range): (s: real)
    ensures Valid(r) <==> 0.0 < s
    ensures r.minValue + s == r.maxValue
  {
    r.maxValue - r.minValue
  }

  /** The value at `normalizedPosition` on a linear scale. */
  function GetLinearValue(r: Range, normalizedPosition: real): (v: real)
    ensures normalizedPosition == 0.0 ==> v == r.minValue
    ensures normalizedPosition == 1.0 ==> v == r.maxValue
    ensures Valid(r) && 0.0 <= normalizedPosition <= 1.0 ==> r.minValue <= v <= r.maxValue
  {
    LerpEndpoints(r.minValue, r.maxValue);
    assert Valid(r) && 0.0 <= normalizedPosition <= 1.0 ==>
      r.minValue <= Lerp(normalizedPosition, r.minValue, r.maxValue) <= r.maxValue by {
      if Valid(r) && 0.0 <= normalizedPosition <= 1.0 {
        LerpWithin(normalizedPosition, r.minValue, r.maxValue);
      }
    }
    Lerp(normalizedPosition, r.minValue, r.maxValue)
  }

  /** The value at `normalizedPosition` on a logarithmic scale: the exponential
      of the position mapped linearly between the logarithms of the bounds. */
  function GetLogValue(t: Transcendentals, r: Range, normalizedPosition: real): (v: real)
    ensures Lawful(t) ==> 0.0 < v
    ensures Lawful(t) ==> t.log(v) == Lerp(normalizedPosition, r.minLogValue, r.maxLogValue)
  {
    t.exp(Lerp(normalizedPosition, r.minLogValue, r.maxLogValue))
  }

  /** Where `linearValue` lies on the logarithmic scale, clamped to [0, 1].
      Only a value strictly inside the range is divided by the log span. */
  function GetNormalizedLog(t: Transcendentals, r: Range, linearValue: real): (p: real)
    requires r.minValue < linearValue < r.maxValue ==> r.minLogValue != r.maxLogValue
    ensures linearValue <= r.minValue ==> p == 0.0
    ensures r.minValue < linearValue && r.maxValue <= linearValue ==> p == 1.0
  {
    if linearValue <= r.minValue then
      0.0
    else if linearValue >= r.maxValue then
      1.0
    else
      Unlerp(t.log(linearValue), r.minLogValue, r.maxLogValue)
  }

  // ---------------------------------------------------------------------------
  // Properties

  /** The linear scale is strictly increasing, and normalizing against the
      range's size undoes it. */
  lemma LinearValueInverts(r: Range, p: real, q: real)
    requires Valid(r)
    ensures (GetLinearValue(r, p) - r.minValue) / GetSize(r) == p
    ensures p < q <==> GetLinearValue(r, p) < GetLinearValue(r, q)
  {
    UnlerpLerp(p, r.minValue, r.maxValue);
    if p < q {
      LerpStrictlyIncreasing(p, q, r.minValue, r.maxValue);
    } else if q < p {
      LerpStrictlyIncreasing(q, p, r.minValue, r.maxValue);
    }
  }

  /** Under lawful transcendentals the logs of a log-ready range are ordered,
      so the normalizing divisor is positive. */
  lemma LogBoundsOrdered(t: Transcendentals, r: Range)
    requires Lawful(t) && LogReady(t, r)
    ensures r.minLogValue < r.maxLogValue
  {
  }

  /** The logarithmic scale starts at the lower bound and ends at the upper one. */
  lemma LogValueEndpoints(t: Transcendentals, r: Range)
    requires Lawful(t) && LogReady(t, r)
    ensures GetLogValue(t, r, 0.0) == r.minValue
    ensures GetLogValue(t, r, 1.0) == r.maxValue
  {
    LerpEndpoints(r.minLogValue, r.maxLogValue);
  }

  /** The logarithmic scale is strictly increasing in the position. */
  lemma LogValueIncreasing(t: Transcendentals, r: Range, p: real, q: real)
    requires Lawful(t) && LogReady(t, r) && p < q
    ensures GetLogValue(t, r, p) < GetLogValue(t, r, q)
  {
    LogBoundsOrdered(t, r);
    LerpStrictlyIncreasing(p, q, r.minLogValue, r.maxLogValue);
  }

  /** Strictly inside the range the normalized position lies strictly inside (0, 1). */
  lemma NormalizedLogInside(t: Transcendentals, r: Range, v: real)
    requires Lawful(t) && LogReady(t, r) && r.minValue < v < r.maxValue
    ensures r.minLogValue != r.maxLogValue
    ensures 0.0 < GetNormalizedLog(t, r, v) < 1.0
  {
    LogBoundsOrdered(t, r);
    UnlerpInside(t.log(v), r.minLogValue, r.maxLogValue);
  }

  /** Normalizing a value strictly inside the range and mapping it back on the
      logarithmic scale gives the value again. */
  lemma NormalizedLogThenLogValue(t: Transcendentals, r: Range, v: real)
    requires Lawful(t) && LogReady(t, r) && r.minValue < v < r.maxValue
    ensures r.minLogValue != r.maxLogValue
    ensures GetLogValue(t, r, GetNormalizedLog(t, r, v)) == v
  {
    LogBoundsOrdered(t, r);
    LerpUnlerp(t.log(v), r.minLogValue, r.maxLogValue);
  }

  /** Mapping a position strictly inside (0, 1) on the logarithmic scale and
      normalizing the result gives the position again. */
  lemma LogValueThenNormalizedLog(t: Transcendentals, r: Range, p: real)
    requires Lawful(t) && LogReady(t, r) && 0.0 < p < 1.0
    ensures r.minLogValue != r.maxLogValue
    ensures GetNormalizedLog(t, r, GetLogValue(t, r, p)) == p
  {
    LogBoundsOrdered(t, r);
    LogValueIncreasing(t, r, 0.0, p);
    LogValueIncreasing(t, r, p, 1.0);
    LogValueEndpoints(t, r);
    UnlerpLerp(p, r.minLogValue, r.maxLogValue);
  }
}

=== FILE: ring_buffer.dfy ===
/** The data-carrying multi-channel ring: a JUCE-style audio buffer whose
    positions are managed by the virtual FIFO of AbstractRingBuffer. */
module RingBuffer {
  import opened MathUtil
  import F = AbstractRingBuffer

  /** A multi-channel audio buffer: `data[c][i]` is sample `i` of channel `c`. */
  datatype AudioBuffer = AudioBuffer(numSamples: nat, data: seq<seq<real>>)

  /** Every channel holds exactly `numSamples` samples. */
  predicate WellFormed(b: AudioBuffer) {
    forall c :: 0 <= c < |b.data| ==> |b.data[c]| == b.numSamples
  }

  function Silence(numChannels: nat, numSamples: nat): (b: AudioBuffer)
    ensures WellFormed(b) && |b.data| == numChannels && b.numSamples == numSamples
  {
    AudioBuffer(numSamples, seq(numChannels, _ => Zeros(numSamples)))
  }

  datatype Ring = Ring(fifo: F.Fifo, storage: AudioBuffer)

  /** Every position the FIFO can hand out is a sample of the storage. */
  predicate Valid(r: Ring) {
    F.Valid(r.fifo) && WellFormed(r.storage) && r.fifo.size <= r.storage.numSamples
  }

  /** Storage of `bufferSize + 1` samples per channel, matching the FIFO's
      `bufferSize + 1` positions (of which `bufferSize` can hold data). */
  function Create(numChannels: nat, bufferSize: nat): (r: Ring)
    ensures Valid(r) && |r.storage.data| == numChannels
    ensures r.storage.numSamples == r.fifo.size == bufferSize + 1
    ensures F.NumReady(r.fifo) == 0 && F.FreeSpace(r.fifo) == bufferSize
  {
    Ring(F.Create(bufferSize + 1), Silence(numChannels, bufferSize + 1))
  }

  /** The constructor as the source writes it: `bufferSize` samples of storage
      under a FIFO of `bufferSize + 1` positions. */
  function CreateAsWritten(numChannels: nat, bufferSize: nat): (r: Ring)
    ensures F.Valid(r.fifo) && WellFormed(r.storage) && |r.storage.data| == numChannels
    ensures r.storage.numSamples == bufferSize && r.fifo.size == bufferSize + 1
  {
    Ring(F.Create(bufferSize + 1), Silence(numChannels, bufferSize))
  }

  /** The samples of one channel that `f` marks ready, oldest first. */
  function ReadyOf(f: F.Fifo, ch: seq<real>): (s: seq<real>)
    requires F.Valid(f) && f.size <= |ch|
    ensures |s| == F.NumReady(f)
  {
    seq(F.NumReady(f), k requires 0 <= k < F.NumReady(f) => ch[F.Advance(f, f.head, k)])
  }

  /** The ready samples of channel `c`, oldest first. */
  function Ready(r: Ring, c: nat): (s: seq<real>)
    requires Valid(r) && c < |r.storage.data|
    ensures |s| == F.NumReady(r.fifo)
  {
    ReadyOf(r.fifo, r.storage.data[c])
  }

  /** `AudioBuffer::copyFrom` on one channel: `src` replaces `dst` from `start` on. */
  function CopyFrom(dst: seq<real>, start: nat, src: seq<real>): (r: seq<real>)
    requires start + |src| <= |dst|
    ensures |r| == |dst|
    ensures forall p :: start <= p < start + |src| ==> r[p] == src[p - start]
    ensures forall p :: 0 <= p < |dst| && !(start <= p < start + |src|) ==> r[p] == dst[p]
  {
    dst[..start] + src + dst[start + |src|..]
  }

  /** Both ranges of `res` are non-negative, the second starts at 0, together
      they cover at most `count` items, and they lie inside a channel of
      `len` samples. */
  predicate Fits(res: F.OperationResult, count: int, len: int) {
    && 0 <= res.startIndex1 && 0 <= res.blockSize1 && res.startIndex2 == 0 && 0 <= res.blockSize2
    && res.blockSize1 + res.blockSize2 <= count
    && res.startIndex1 + res.blockSize1 <= len && res.blockSize2 <= len
  }

  /** The per-channel body of the write operation: the first `blockSize1`
      samples go to `startIndex1` on, the rest to `startIndex2` on. */
  function WriteChannel(ch: seq<real>, res: F.OperationResult, src: seq<real>): (r: seq<real>)
    requires Fits(res, |src|, |ch|) && (res.blockSize2 > 0 ==> res.blockSize2 <= res.startIndex1)
    ensures |r| == |ch|
    ensures forall j :: 0 <= j < res.blockSize1 + res.blockSize2 ==> r[F.SlotOf(res, j)] == src[j]
    ensures forall p :: 0 <= p < |ch| && !(res.startIndex1 <= p < res.startIndex1 + res.blockSize1) && !(p < res.blockSize2) ==>
      r[p] == ch[p]
  {
    var a := if res.blockSize1 > 0 then CopyFrom(ch, res.startIndex1, src[..res.blockSize1]) else ch;
    if res.blockSize2 > 0 then CopyFrom(a, res.startIndex2, src[res.blockSize1..res.blockSize1 + res.blockSize2]) else a
  }

  /** The per-channel body of the read operation: `blockSize1` samples from
      `startIndex1` land at output position 0, the rest right after them. */
  function ReadChannel(out: seq<real>, ch: seq<real>, res: F.OperationResult): (r: seq<real>)
    requires Fits(res, |out|, |ch|)
    ensures |r| == |out|
    ensures forall k :: 0 <= k < res.blockSize1 + res.blockSize2 ==> r[k] == ch[F.SlotOf(res, k)]
    ensures forall k :: res.blockSize1 + res.blockSize2 <= k < |out| ==> r[k] == out[k]
  {
    var a := if res.blockSize1 > 0 then CopyFrom(out, 0, ch[res.startIndex1..res.startIndex1 + res.blockSize1]) else out;
    if res.blockSize2 > 0 then CopyFrom(a, res.blockSize1, ch[res.startIndex2..res.startIndex2 + res.blockSize2]) else a
  }

  /** The count the read operation reports back: the copied samples scaled by
      `1 - overlapRatio` and truncated toward zero. */
  function ConsumedCount(res: F.OperationResult, overlapRatio: real): int {
    Consumed(res.blockSize1 + res.blockSize2, overlapRatio)
  }

  /** Of `n` samples read, those released: `n * (1 - overlapRatio)` truncated
      toward zero (the rest stay ready for the next read). */
  function Consumed(n: int, overlapRatio: real): int {
    Trunc(n as real * (1.0 - overlapRatio))
  }

  /** The read operation handed to the FIFO, as far as the FIFO can see it. */
  function Consumer(overlapRatio: real): F.OperationResult -> int {
    res => ConsumedCount(res, overlapRatio)
  }

  /** Writes every channel of `block` behind the ready samples, or fails
      without storing anything when the block is longer than the free space. */
  function WriteSamples(r: Ring, block: AudioBuffer): (out: (bool, Ring))
    requires Valid(r) && WellFormed(block) && |block.data| <= |r.storage.data|
    ensures Valid(out.1) && out.1.fifo.size == r.fifo.size
    ensures out.1.storage.numSamples == r.storage.numSamples && |out.1.storage.data| == |r.storage.data|
    ensures !out.0 <==> block.numSamples > F.FreeSpace(r.fifo)
    ensures !out.0 ==> out.1 == r
    ensures out.0 ==> F.NumReady(out.1.fifo) == F.NumReady(r.fifo) + block.numSamples
    ensures out.0 ==> forall c :: 0 <= c < |block.data| ==> Ready(out.1, c) == Ready(r, c) + block.data[c]
    ensures out.0 ==> forall c :: |block.data| <= c < |r.storage.data| ==> out.1.storage.data[c] == r.storage.data[c]
  {
    var n := block.numSamples;
    if n > F.FreeSpace(r.fifo) then
      (false, r)
    else
      var res := F.GenerateResult(r.fifo, r.fifo.tail, r.fifo.head, n);
      F.WriteRangesCoverFree(r.fifo, n);
      SplitsFit(r.fifo, res, r.fifo.tail, n, r.storage.numSamples);
      F.CountIsRequest(r.fifo, r.fifo.tail, r.fifo.head, n);
      F.WriteMovesTail(r.fifo, n, F.WholeBlock());
      var r' := Ring(F.Write(r.fifo, n, F.WholeBlock()).fifo, CopyIn(r.storage, block, res));
      StoreAppends(r, block, res, r');
      (true, r')
  }

  /** The copying half of the write operation: channel `c` of `block` goes to
      the two ranges of `res` in channel `c` of the storage. */
  function CopyIn(storage: AudioBuffer, block: AudioBuffer, res: F.OperationResult): (s: AudioBuffer)
    requires WellFormed(storage) && WellFormed(block) && |block.data| <= |storage.data|
    requires Fits(res, block.numSamples, storage.numSamples)
    requires res.blockSize2 > 0 ==> res.blockSize2 <= res.startIndex1
    ensures WellFormed(s) && s.numSamples == storage.numSamples && |s.data| == |storage.data|
    ensures forall c :: 0 <= c < |block.data| ==> s.data[c] == WriteChannel(storage.data[c], res, block.data[c])
    ensures forall c :: |block.data| <= c < |storage.data| ==> s.data[c] == storage.data[c]
  {
    AudioBuffer(storage.numSamples, seq(|storage.data|, c requires 0 <= c < |storage.data| =>
      if c < |block.data| then WriteChannel(storage.data[c], res, block.data[c]) else storage.data[c]))
  }

  /** Reads the oldest `buffer.numSamples` ready samples of every channel of
      `buffer` into its positions `0..`, then releases only the share
      `1 - overlapRatio` of them; fails untouched when too few are ready. */
  function ReadSamples(r: Ring, buffer: AudioBuffer, overlapRatio: real): (out: (bool, Ring, AudioBuffer))
    requires Valid(r) && WellFormed(buffer) && |buffer.data| <= |r.storage.data|
    requires buffer.numSamples <= F.NumReady(r.fifo) ==>
      0 <= Consumed(buffer.numSamples, overlapRatio) <= r.fifo.size
    ensures Valid(out.1) && out.1.fifo.size == r.fifo.size && out.1.storage == r.storage
    ensures WellFormed(out.2) && out.2.numSamples == buffer.numSamples && |out.2.data| == |buffer.data|
    ensures !out.0 <==> buffer.numSamples > F.NumReady(r.fifo)
    ensures !out.0 ==> out.1 == r && out.2 == buffer
    ensures out.0 ==> forall c :: 0 <= c < |buffer.data| ==> out.2.data[c] == Ready(r, c)[..buffer.numSamples]
    ensures out.0 && 0.0 <= overlapRatio ==>
      var consumed := Consumed(buffer.numSamples, overlapRatio);
      && 0 <= consumed <= buffer.numSamples
      && F.NumReady(out.1.fifo) == F.NumReady(r.fifo) - consumed
      && forall c :: 0 <= c < |r.storage.data| ==> Ready(out.1, c) == Ready(r, c)[consumed..]
    ensures out.0 && overlapRatio == 0.0 ==> F.NumReady(out.1.fifo) == F.NumReady(r.fifo) - buffer.numSamples
  {
    var n := buffer.numSamples;
    if n > F.NumReady(r.fifo) then
      (false, r, buffer)
    else
      var res := F.GenerateResult(r.fifo, r.fifo.head, r.fifo.tail, n);
      F.CountIsRequest(r.fifo, r.fifo.head, r.fifo.tail, n);
      assert Consumer(overlapRatio)(res) == Consumed(n, overlapRatio);
      assert 0.0 <= overlapRatio ==> Consumed(n, overlapRatio) <= n by {
        if 0.0 <= overlapRatio {
          ConsumedAtMostCopied(n, overlapRatio);
        }
      }
      assert overlapRatio == 0.0 ==> Consumed(n, overlapRatio) == n by {
        if overlapRatio == 0.0 {
          ConsumedAtMostCopied(n, overlapRatio);
        }
      }
      var (r', buffer') := ReadReady(r, buffer, Consumer(overlapRatio));
      (true, r', buffer')
  }

  /** The successful branch of a read, for any read operation that copies the
      two ranges and reports how many samples it releases. */
  function ReadReady(r: Ring, buffer: AudioBuffer, readOperation: F.OperationResult -> int): (out: (Ring, AudioBuffer))
    requires Valid(r) && WellFormed(buffer) && |buffer.data| <= |r.storage.data|
    requires buffer.numSamples <= F.NumReady(r.fifo)
    requires 0 <= readOperation(F.GenerateResult(r.fifo, r.fifo.head, r.fifo.tail, buffer.numSamples)) <= r.fifo.size
    ensures Valid(out.0) && out.0.fifo.size == r.fifo.size && out.0.storage == r.storage
    ensures WellFormed(out.1) && out.1.numSamples == buffer.numSamples && |out.1.data| == |buffer.data|
    ensures forall c :: 0 <= c < |buffer.data| ==> out.1.data[c] == Ready(r, c)[..buffer.numSamples]
    ensures var consumed := readOperation(F.GenerateResult(r.fifo, r.fifo.head, r.fifo.tail, buffer.numSamples));
      consumed <= buffer.numSamples ==>
      && F.NumReady(out.0.fifo) == F.NumReady(r.fifo) - consumed
      && forall c :: 0 <= c < |r.storage.data| ==> Ready(out.0, c) == Ready(r, c)[consumed..]
  {
    var n := buffer.numSamples;
    var consumed := readOperation(F.GenerateResult(r.fifo, r.fifo.head, r.fifo.tail, n));
    var moved := F.Read(r.fifo, n, readOperation);
    var r' := Ring(moved.fifo, r.storage);
    assert consumed <= n ==>
      && F.NumReady(r'.fifo) == F.NumReady(r.fifo) - consumed
      && forall c :: 0 <= c < |r.storage.data| ==> Ready(r', c) == Ready(r, c)[consumed..]
    by {
      if consumed <= n {
        assert r'.fifo == r.fifo.(head := Wrap(r.fifo.head + consumed, r.fifo.size));
        ReleaseDropsFront(r, consumed, r');
      }
    }
    (r', CopyOldest(r, buffer))
  }

  /** The read operation's copy, on the ranges the FIFO hands out. */
  function CopyOldest(r: Ring, buffer: AudioBuffer): (b: AudioBuffer)
    requires Valid(r) && WellFormed(buffer) && |buffer.data| <= |r.storage.data|
    requires buffer.numSamples <= F.NumReady(r.fifo)
    ensures WellFormed(b) && b.numSamples == buffer.numSamples && |b.data| == |buffer.data|
    ensures forall c :: 0 <= c < |buffer.data| ==> b.data[c] == Ready(r, c)[..buffer.numSamples]
  {
    var res := F.GenerateResult(r.fifo, r.fifo.head, r.fifo.tail, buffer.numSamples);
    F.ReadRangesCoverReady(r.fifo, buffer.numSamples);
    SplitsFit(r.fifo, res, r.fifo.head, buffer.numSamples, r.storage.numSamples);
    DeliversOldest(r, buffer, res);
    CopyOut(buffer, r.storage, res)
  }

  /** The copying half of the read operation: the two ranges of `res` in
      channel `c` of the storage go, one after the other, to the front of
      channel `c` of `buffer`. */
  function CopyOut(buffer: AudioBuffer, storage: AudioBuffer, res: F.OperationResult): (b: AudioBuffer)
    requires WellFormed(storage) && WellFormed(buffer) && |buffer.data| <= |storage.data|
    requires Fits(res, buffer.numSamples, storage.numSamples)
    ensures WellFormed(b) && b.numSamples == buffer.numSamples && |b.data| == |buffer.data|
    ensures forall c :: 0 <= c < |buffer.data| ==> b.data[c] == ReadChannel(buffer.data[c], storage.data[c], res)
  {
    AudioBuffer(buffer.numSamples, seq(|buffer.data|, c requires 0 <= c < |buffer.data| =>
      ReadChannel(buffer.data[c], storage.data[c], res)))
  }

  /** Resizes the virtual FIFO to `readSize * chunkCount` data positions (one
      more in total) and clears it, unless that size is already in place. */
  function SetVirtualSize(r: Ring, readSize: int, chunkCount: int): (r': Ring)
    requires Valid(r)
    requires readSize * chunkCount + 1 != r.fifo.size ==> 0 <= readSize * chunkCount < r.storage.numSamples
    ensures Valid(r') && r'.storage == r.storage
    ensures r'.fifo.size == readSize * chunkCount + 1
    ensures readSize * chunkCount + 1 == r.fifo.size ==> r' == r
    ensures readSize * chunkCount + 1 != r.fifo.size ==> F.NumReady(r'.fifo) == 0
  {
    var bufferSize := readSize * chunkCount;
    if bufferSize + 1 != r.fifo.size then
      Ring(F.SetTotalSize(r.fifo, bufferSize + 1), r.storage)
    else
      r
  }

  /** `setVirtualSize` as the source writes it: the requested size is compared
      with the FIFO's total size, which is always one larger. */
  function SetVirtualSizeAsWritten(r: Ring, readSize: int, chunkCount: int): (r': Ring)
    requires F.Valid(r.fifo) && WellFormed(r.storage)
    requires readSize * chunkCount != r.fifo.size ==> 0 <= readSize * chunkCount <= r.storage.numSamples
    ensures F.Valid(r'.fifo) && r'.storage == r.storage
    ensures readSize * chunkCount != r.fifo.size ==>
      r'.fifo.size == readSize * chunkCount + 1 && F.NumReady(r'.fifo) == 0
    ensures readSize * chunkCount == r.fifo.size ==> r' == r
  {
    var bufferSize := readSize * chunkCount;
    if bufferSize != r.fifo.size then
      Ring(F.SetTotalSize(r.fifo, bufferSize + 1), r.storage)
    else
      r
  }

  // ---------------------------------------------------------------------------
  // Proofs

  /** Ranges that split `n` items of the FIFO fit any channel at least as long
      as the FIFO. */
  lemma SplitsFit(f: F.Fifo, res: F.OperationResult, from: int, n: int, len: int)
    requires F.Valid(f) && 0 <= from < f.size && 0 <= n < f.size && f.size <= len
    requires F.Splits(f, res, from, n)
    ensures Fits(res, n, len)
  {
  }

  /** Moving the tail forward by at most the free space adds that many ready items. */
  lemma TailMove(f: F.Fifo, n: int)
    requires F.Valid(f) && 0 <= n <= F.FreeSpace(f)
    ensures var f' := f.(tail := Wrap(f.tail + n, f.size));
      F.Valid(f') && F.NumReady(f') == F.NumReady(f) + n
  {
  }

  /** The write operation on one channel leaves the ready region alone. */
  lemma WriteChannelKeepsReady(f: F.Fifo, res: F.OperationResult, ch: seq<real>, src: seq<real>)
    requires F.Valid(f) && f.size <= |ch| && |src| <= F.FreeSpace(f)
    requires F.Splits(f, res, f.tail, |src|) && (res.blockSize2 > 0 ==> res.blockSize2 < f.head <= f.tail)
    ensures var w := WriteChannel(ch, res, src);
      forall k :: 0 <= k < F.NumReady(f) ==> w[F.Advance(f, f.head, k)] == ch[F.Advance(f, f.head, k)]
  {
    forall k | 0 <= k < F.NumReady(f)
      ensures WriteChannel(ch, res, src)[F.Advance(f, f.head, k)] == ch[F.Advance(f, f.head, k)]
    {
      var p := F.Advance(f, f.head, k);
      if f.tail >= f.head {
        assert f.head <= p < f.tail;
      } else {
        assert p < f.tail || p >= f.head;
      }
    }
  }

  /** The write operation on one channel puts block sample `j` at the
      position `j` places after the tail. */
  lemma WriteChannelPlacesBlock(f: F.Fifo, res: F.OperationResult, ch: seq<real>, src: seq<real>)
    requires F.Valid(f) && f.size <= |ch| && |src| <= F.FreeSpace(f)
    requires F.Splits(f, res, f.tail, |src|) && (res.blockSize2 > 0 ==> res.blockSize2 < f.head <= f.tail)
    ensures var w := WriteChannel(ch, res, src);
      forall j :: 0 <= j < |src| ==> w[F.Advance(f, f.tail, j)] == src[j]
  {
    forall j | 0 <= j < |src|
      ensures WriteChannel(ch, res, src)[F.Advance(f, f.tail, j)] == src[j]
    {
      assert F.SlotOf(res, j) == F.Advance(f, f.tail, j);
    }
  }

  /** On one channel, a write of `src` into the free positions after the tail
      appends it to the ready samples once the tail has moved past it. */
  lemma AppendChannel(f: F.Fifo, f': F.Fifo, res: F.OperationResult, ch: seq<real>, ch': seq<real>, src: seq<real>)
    requires F.Valid(f) && f.size <= |ch| && |src| <= F.FreeSpace(f)
    requires F.Splits(f, res, f.tail, |src|) && (res.blockSize2 > 0 ==> res.blockSize2 < f.head <= f.tail)
    requires f' == f.(tail := Wrap(f.tail + |src|, f.size))
    requires ch' == WriteChannel(ch, res, src)
    ensures F.Valid(f') && ReadyOf(f', ch') == ReadyOf(f, ch) + src
  {
    TailMove(f, |src|);
    WriteChannelKeepsReady(f, res, ch, src);
    WriteChannelPlacesBlock(f, res, ch, src);
    AppendByPosition(f, f', ch, ch', src);
  }

  /** A channel that keeps the ready samples and holds `src` in the positions
      after the tail reads, once the tail has moved past them, as the old ready
      samples followed by `src`. */
  lemma AppendByPosition(f: F.Fifo, f': F.Fifo, ch: seq<real>, ch': seq<real>, src: seq<real>)
    requires F.Valid(f) && f.size <= |ch| && |src| <= F.FreeSpace(f) && |ch'| == |ch|
    requires f' == f.(tail := Wrap(f.tail + |src|, f.size))
    requires forall k :: 0 <= k < F.NumReady(f) ==> ch'[F.Advance(f, f.head, k)] == ch[F.Advance(f, f.head, k)]
    requires forall j :: 0 <= j < |src| ==> ch'[F.Advance(f, f.tail, j)] == src[j]
    ensures F.Valid(f') && ReadyOf(f', ch') == ReadyOf(f, ch) + src
  {
    var ready := F.NumReady(f);
    TailMove(f, |src|);
    var before := ReadyOf(f, ch);
    var after := ReadyOf(f', ch');
    forall k | 0 <= k < ready
      ensures after[k] == before[k]
    {
    }
    forall k | ready <= k < ready + |src|
      ensures after[k] == src[k - ready]
    {
      F.AdvanceAdd(f, f.head, ready, k - ready);
    }
    ConcatByIndex(after, before, src);
  }

  /** Every channel of the block written into the ranges after the tail
      follows the samples that were ready. */
  lemma StoreAppends(r: Ring, block: AudioBuffer, res: F.OperationResult, r': Ring)
    requires Valid(r) && WellFormed(block) && |block.data| <= |r.storage.data|
    requires block.numSamples <= F.FreeSpace(r.fifo)
    requires F.Splits(r.fifo, res, r.fifo.tail, block.numSamples)
    requires res.blockSize2 > 0 ==> res.blockSize2 < r.fifo.head <= r.fifo.tail
    requires r'.fifo == r.fifo.(tail := Wrap(r.fifo.tail + block.numSamples, r.fifo.size))
    requires r'.storage == CopyIn(r.storage, block, res)
    ensures Valid(r')
    ensures forall c :: 0 <= c < |block.data| ==> Ready(r', c) == Ready(r, c) + block.data[c]
  {
    TailMove(r.fifo, block.numSamples);
    forall c | 0 <= c < |block.data|
      ensures Ready(r', c) == Ready(r, c) + block.data[c]
    {
      AppendChannel(r.fifo, r'.fifo, res, r.storage.data[c], r'.storage.data[c], block.data[c]);
    }
  }

  /** Every channel of the read buffer receives the oldest ready samples. */
  lemma DeliversOldest(r: Ring, buffer: AudioBuffer, res: F.OperationResult)
    requires Valid(r) && WellFormed(buffer) && |buffer.data| <= |r.storage.data|
    requires buffer.numSamples <= F.NumReady(r.fifo)
    requires F.Splits(r.fifo, res, r.fifo.head, buffer.numSamples)
    ensures forall c :: 0 <= c < |buffer.data| ==>
      CopyOut(buffer, r.storage, res).data[c] == Ready(r, c)[..buffer.numSamples]
  {
    forall c | 0 <= c < |buffer.data|
      ensures CopyOut(buffer, r.storage, res).data[c] == Ready(r, c)[..buffer.numSamples]
    {
      ReadChannelCopiesOldest(r.fifo, res, buffer.data[c], r.storage.data[c]);
    }
  }

  /** On one channel, the read operation delivers the oldest ready samples in
      FIFO order. */
  lemma ReadChannelCopiesOldest(f: F.Fifo, res: F.OperationResult, out: seq<real>, ch: seq<real>)
    requires F.Valid(f) && f.size <= |ch| && |out| <= F.NumReady(f)
    requires F.Splits(f, res, f.head, |out|)
    ensures ReadChannel(out, ch, res) == ReadyOf(f, ch)[..|out|]
  {
    forall k | 0 <= k < |out|
      ensures ReadChannel(out, ch, res)[k] == ReadyOf(f, ch)[k]
    {
      assert F.SlotOf(res, k) == F.Advance(f, f.head, k);
    }
  }

  /** Moving the head forward by `consumed` drops exactly that many samples
      from the front of every channel. */
  lemma ReleaseDropsFront(r: Ring, consumed: int, r': Ring)
    requires Valid(r) && 0 <= consumed <= F.NumReady(r.fifo)
    requires r'.storage == r.storage
    requires r'.fifo == r.fifo.(head := Wrap(r.fifo.head + consumed, r.fifo.size))
    ensures Valid(r') && F.NumReady(r'.fifo) == F.NumReady(r.fifo) - consumed
    ensures forall c :: 0 <= c < |r.storage.data| ==> Ready(r', c) == Ready(r, c)[consumed..]
  {
    forall c | 0 <= c < |r.storage.data|
      ensures Ready(r', c) == Ready(r, c)[consumed..]
    {
      forall k | 0 <= k < F.NumReady(r'.fifo)
        ensures Ready(r', c)[k] == Ready(r, c)[consumed + k]
      {
        assert F.Advance(r'.fifo, r'.fifo.head, k) == F.Advance(r.fifo, r.fifo.head, consumed + k);
      }
    }
  }

  /** With a non-negative overlap ratio the read never releases more than it copied,
      and with no overlap it releases everything it copied. */
  lemma ConsumedAtMostCopied(n: nat, overlapRatio: real)
    requires 0.0 <= overlapRatio && 0 <= Consumed(n, overlapRatio)
    ensures Consumed(n, overlapRatio) <= n
    ensures overlapRatio == 0.0 ==> Consumed(n, overlapRatio) == n
  {
    assert n as real * (1.0 - overlapRatio) == n as real - n as real * overlapRatio;
    assert n as real * overlapRatio >= 0.0;
  }

  /** Every range a write can hand out lies inside the storage, whatever the
      state of a valid ring. */
  lemma WriteStaysInStorage(r: Ring, n: int)
    requires Valid(r) && n <= F.FreeSpace(r.fifo)
    ensures var res := F.GenerateResult(r.fifo, r.fifo.tail, r.fifo.head, n);
      res.startIndex1 + res.blockSize1 <= r.storage.numSamples && res.blockSize2 <= r.storage.numSamples
  {
    if n >= 0 {
      F.WriteRangesCoverFree(r.fifo, n);
    }
  }

  /** With the constructor as written, filling the ring, reading one sample
      back and writing one more makes the write operation copy to position
      `bufferSize` of a channel that holds only `bufferSize` samples. */
  lemma AsWrittenWriteLeavesStorage(numChannels: nat, bufferSize: nat)
    requires bufferSize >= 1
    ensures var r0 := CreateAsWritten(numChannels, bufferSize);
      var w := F.Write(r0.fifo, bufferSize, F.WholeBlock());
      var rd := F.Read(w.fifo, 1, F.WholeBlock());
      var res := F.GenerateResult(rd.fifo, rd.fifo.tail, rd.fifo.head, 1);
      && w.ok && rd.ok && F.FreeSpace(rd.fifo) == 1
      && res.startIndex1 == bufferSize && res.blockSize1 == 1
      && res.startIndex1 + res.blockSize1 > r0.storage.numSamples
  {
    var r0 := CreateAsWritten(numChannels, bufferSize);
    F.CountIsRequest(r0.fifo, 0, 0, bufferSize);
    F.WriteMovesTail(r0.fifo, bufferSize, F.WholeBlock());
    var w := F.Write(r0.fifo, bufferSize, F.WholeBlock());
    assert w.fifo == F.Fifo(bufferSize + 1, 0, bufferSize);
    F.CountIsRequest(w.fifo, 0, bufferSize, 1);
    F.ReadMovesHead(w.fifo, 1, F.WholeBlock());
    var rd := F.Read(w.fifo, 1, F.WholeBlock());
    assert rd.fifo == F.Fifo(bufferSize + 1, 1, bufferSize);
  }

  /** With the comparison as written, asking again for the virtual size that
      is already in place empties a ring that holds data; the corrected
      comparison keeps it. */
  lemma AsWrittenSetVirtualSizeDiscards(r: Ring, readSize: int, chunkCount: int)
    requires Valid(r) && r.fifo.size == readSize * chunkCount + 1 && F.NumReady(r.fifo) > 0
    ensures F.NumReady(SetVirtualSizeAsWritten(r, readSize, chunkCount).fifo) == 0
    ensures SetVirtualSize(r, readSize, chunkCount) == r
  {
  }

  /** Writing into an empty ring makes the block exactly the ready samples. */
  lemma WriteIntoEmpty(r: Ring, block: AudioBuffer)
    requires Valid(r) && F.NumReady(r.fifo) == 0
    requires WellFormed(block) && |block.data| <= |r.storage.data| && block.numSamples < r.fifo.size
    ensures var (written, r1) := WriteSamples(r, block);
      && written && Valid(r1) && F.NumReady(r1.fifo) == block.numSamples
      && |r1.storage.data| == |r.storage.data|
      && forall c :: 0 <= c < |block.data| ==> Ready(r1, c) == block.data[c]
  {
    var (written, r1) := WriteSamples(r, block);
    forall c | 0 <= c < |block.data|
      ensures Ready(r1, c) == block.data[c]
    {
      assert Ready(r, c) == [];
    }
  }

  /** Reading everything that is ready with no overlap returns it all and
      leaves the ring empty. */
  lemma ReadEverything(r: Ring, dest: AudioBuffer)
    requires Valid(r) && WellFormed(dest) && |dest.data| <= |r.storage.data|
    requires dest.numSamples == F.NumReady(r.fifo)
    ensures var (read, r2, out) := ReadSamples(r, dest, 0.0);
      && read && F.NumReady(r2.fifo) == 0
      && forall c :: 0 <= c < |dest.data| ==> out.data[c] == Ready(r, c)
  {
    assert Consumed(dest.numSamples, 0.0) == dest.numSamples;
  }

  /** An empty ring gives back, with no overlap, exactly the block written into it
      and is empty again afterwards. */
  lemma RoundTrip(r: Ring, block: AudioBuffer, dest: AudioBuffer)
    requires Valid(r) && F.NumReady(r.fifo) == 0
    requires WellFormed(block) && |block.data| <= |r.storage.data| && block.numSamples < r.fifo.size
    requires WellFormed(dest) && dest.numSamples == block.numSamples && |dest.data| == |block.data|
    ensures var (written, r1) := WriteSamples(r, block);
      var (read, r2, out) := ReadSamples(r1, dest, 0.0);
      written && read && out.data == block.data && F.NumReady(r2.fifo) == 0
  {
    var (written, r1) := WriteSamples(r, block);
    WriteIntoEmpty(r, block);
    ReadEverything(r1, dest);
    var (read, r2, out) := ReadSamples(r1, dest, 0.0);
    assert out.data == block.data;
  }
}

=== FILE: spectrogram.dfy ===
/** The analysis half of the spectrogram: summing the channels into the FFT
    input, averaging the magnitude spectra of the last four frames, and
    resampling the averaged spectrum onto the display's frequency axis. */
module Spectrogram {
  import opened MathUtil
  import W = Wrappers
  import Filters
  import NR = NormalizedRange
  import FA = FrequencyAxis
  import RB = RingBuffer
  import F = AbstractRingBuffer

  /** The FFT works on 2^12 = 4096 samples (FFT order 12) and yields half as
      many bins. */
  const FftSize: nat := 4096
  const FftBins: nat := 2048

  /** The averager's channel count: the running sum plus four frames. */
  const AveragerChannels: nat := 5

  const LanczosFilterSize: int := 5

  /** The lowest frequency of the display's axis, in hertz. */
  const MinFrequency: real := 20.0

  /** The share of each read that stays in the ring for the next one. */
  const ReadOverlap: real := 0.5

  /** The gain of -12 dB, the fixed maximum level used while adaptive levels
      are off: the single-precision value JUCE computes, rounded to nine
      significant digits. */
  const FixedMaxLevel: real := 0.251188636

  // ---------------------------------------------------------------------------
  // Averager

  /** Channel 0 holds the running sum; channels 1 to 4 hold the last four
      scaled spectra; `ptr` names the oldest of those four. */
  datatype Averager = Averager(slots: seq<seq<real>>, ptr: int)

  function SlotSum(slots: seq<seq<real>>, i: int): real
    requires |slots| == AveragerChannels && 0 <= i
    requires i < |slots[1]| && i < |slots[2]| && i < |slots[3]| && i < |slots[4]|
  {
    slots[1][i] + slots[2][i] + slots[3][i] + slots[4][i]
  }

  /** Slot 0 is, sample by sample, the sum of slots 1 to 4. */
  predicate AveragerValid(a: Averager, n: nat) {
    && |a.slots| == AveragerChannels
    && (forall k :: 0 <= k < AveragerChannels ==> |a.slots[k]| == n)
    && 1 <= a.ptr < AveragerChannels
    && forall i :: 0 <= i < n ==> a.slots[0][i] == SlotSum(a.slots, i)
  }

  /** The averager as the constructor leaves it: cleared, pointer at 1. */
  function CreateAverager(n: nat): (a: Averager)
    ensures AveragerValid(a, n) && a.ptr == 1
  {
    Averager(seq(AveragerChannels, _ => Zeros(n)), 1)
  }

  /** The gain applied to a new spectrum: one over `n * (channels - 1)`. */
  function AveragerGain(n: nat): real
    requires n > 0
  {
    1.0 / (n * (AveragerChannels - 1)) as real
  }

  /** The first `n` values of a spectrum, scaled by the averager's gain. */
  function Scaled(frame: seq<real>, n: nat): (s: seq<real>)
    requires n > 0 && n <= |frame|
    ensures |s| == n
  {
    seq(n, i requires 0 <= i < n => frame[i] * AveragerGain(n))
  }

  /** The slot after `ptr`, going back to 1 after the last one. */
  function NextPtr(ptr: int): (p: int)
    requires 1 <= ptr < AveragerChannels
    ensures 1 <= p < AveragerChannels
    ensures p == ptr % (AveragerChannels - 1) + 1
  {
    if ptr + 1 == AveragerChannels then 1 else ptr + 1
  }

  /** Replaces the oldest spectrum by `frame`: the oldest is subtracted from
      the running sum, the scaled frame overwrites it and is added to the sum. */
  function AveragerUpdate(a: Averager, frame: seq<real>, n: nat): (a': Averager)
    requires AveragerValid(a, n) && 0 < n <= |frame|
    ensures AveragerValid(a', n)
    ensures a'.slots[a.ptr] == Scaled(frame, n)
    ensures forall k :: 1 <= k < AveragerChannels && k != a.ptr ==> a'.slots[k] == a.slots[k]
    ensures a'.ptr == NextPtr(a.ptr)
  {
    var oldest := a.slots[a.ptr];
    var reduced := seq(n, i requires 0 <= i < n => a.slots[0][i] - oldest[i]);
    var incoming := Scaled(frame, n);
    var sum := seq(n, i requires 0 <= i < n => reduced[i] + incoming[i]);
    var a' := Averager(a.slots[0 := sum][a.ptr := incoming], NextPtr(a.ptr));
    assert forall i :: 0 <= i < n ==> a'.slots[0][i] == SlotSum(a'.slots, i) by {
      forall i | 0 <= i < n
        ensures a'.slots[0][i] == SlotSum(a'.slots, i)
      {
        assert a.slots[0][i] == SlotSum(a.slots, i);
      }
    }
    a'
  }

  /** Four updates in a row overwrite each of the four frame slots once, so
      the running sum is then the sum of the four scaled frames. */
  lemma {:induction false} AveragerSumsLastFour(a: Averager, n: nat, f1: seq<real>, f2: seq<real>, f3: seq<real>, f4: seq<real>)
    requires AveragerValid(a, n) && 0 < n <= |f1| && n <= |f2| && n <= |f3| && n <= |f4|
    ensures var a4 := AveragerUpdate(AveragerUpdate(AveragerUpdate(AveragerUpdate(a, f1, n), f2, n), f3, n), f4, n);
      && a4.ptr == a.ptr
      && forall i :: 0 <= i < n ==>
        a4.slots[0][i] == Scaled(f1, n)[i] + Scaled(f2, n)[i] + Scaled(f3, n)[i] + Scaled(f4, n)[i]
  {
    var a1 := AveragerUpdate(a, f1, n);
    var a2 := AveragerUpdate(a1, f2, n);
    var a3 := AveragerUpdate(a2, f3, n);
    var a4 := AveragerUpdate(a3, f4, n);
    var p1, p2, p3, p4 := a.ptr, a1.ptr, a2.ptr, a3.ptr;
    assert {p1, p2, p3, p4} == {1, 2, 3, 4};
    assert a4.slots[p4] == Scaled(f4, n);
    assert a4.slots[p3] == Scaled(f3, n);
    assert a4.slots[p2] == Scaled(f2, n);
    assert a4.slots[p1] == Scaled(f1, n);
    forall i | 0 <= i < n
      ensures a4.slots[0][i] == Scaled(f1, n)[i] + Scaled(f2, n)[i] + Scaled(f3, n)[i] + Scaled(f4, n)[i]
    {
      assert a4.slots[0][i] == SlotSum(a4.slots, i);
    }
  }

  // ---------------------------------------------------------------------------
  // FFT input

  /** The FFT input: cleared, then channels 0 and 1 of the read buffer added
      onto its first `readSize` positions. */
  method SumChannels(data: seq<seq<real>>, readSize: int) returns (fftData: seq<real>)
    requires |data| >= 2 && 0 <= readSize <= 2 * FftSize
    requires |data[0]| >= readSize && |data[1]| >= readSize
    ensures |fftData| == 2 * FftSize
    ensures forall i :: 0 <= i < readSize ==> fftData[i] == data[0][i] + data[1][i]
    ensures forall i :: readSize <= i < 2 * FftSize ==> fftData[i] == 0.0
  {
    fftData := Zeros(2 * FftSize);
    var c := 0;
    while c < 2
      invariant 0 <= c <= 2 && |fftData| == 2 * FftSize
      invariant forall i :: 0 <= i < readSize ==> fftData[i] == PartialSum(data, c, i)
      invariant forall i :: readSize <= i < 2 * FftSize ==> fftData[i] == 0.0
    {
      var i := 0;
      while i < readSize
        invariant 0 <= i <= readSize && |fftData| == 2 * FftSize
        invariant forall j :: 0 <= j < i ==> fftData[j] == PartialSum(data, c + 1, j)
        invariant forall j :: i <= j < readSize ==> fftData[j] == PartialSum(data, c, j)
        invariant forall j :: readSize <= j < 2 * FftSize ==> fftData[j] == 0.0
      {
        fftData := fftData[i := fftData[i] + data[c][i]];
        i := i + 1;
      }
      c := c + 1;
    }
  }

  /** Sample `i` summed over the first `c` of the two channels. */
  function PartialSum(data: seq<seq<real>>, c: int, i: int): real
    requires |data| >= 2 && 0 <= c <= 2 && 0 <= i < |data[0]| && i < |data[1]|
  {
    if c == 0 then 0.0 else if c == 1 then data[0][i] else data[0][i] + data[1][i]
  }

  // ---------------------------------------------------------------------------
  // Mapping the axis onto FFT bins

  function Nyquist(sampleRate: real): real {
    sampleRate / 2.0
  }

  /** How many bins one hertz spans: `(bins - 1) / nyquist`. */
  function FreqToBin(nyquist: real): real
    requires nyquist != 0.0
  {
    (FftBins - 1) as real / nyquist
  }

  /** The fractional bin that a frequency falls on. */
  function BinPosition(frequency: real, nyquist: real): real
    requires nyquist != 0.0
  {
    frequency * FreqToBin(nyquist)
  }

  /** The width of one bin as a fraction of the spectrum. */
  function FftBinWidth(): real {
    1.0 / FftBins as real
  }

  /** Frequencies between 0 and the Nyquist frequency. */
  predicate AxisInRange(axis: seq<real>, nyquist: real) {
    0.0 < nyquist && forall x :: 0 <= x < |axis| ==> 0.0 <= axis[x] <= nyquist
  }

  lemma BinPositionWithin(frequency: real, nyquist: real)
    requires 0.0 <= frequency <= nyquist && 0.0 < nyquist
    ensures 0.0 <= BinPosition(frequency, nyquist) <= (FftBins - 1) as real
  {
    var k := FreqToBin(nyquist);
    QuotientOfPositives((FftBins - 1) as real, nyquist);
    ProductBounds(frequency, nyquist, k);
    assert nyquist * k == (FftBins - 1) as real;
  }

  lemma QuotientOfPositives(a: real, b: real)
    requires 0.0 < a && 0.0 < b
    ensures 0.0 < a / b
  {
  }

  lemma ProductBounds(f: real, n: real, k: real)
    requires 0.0 <= f <= n && 0.0 < k
    ensures 0.0 <= f * k <= n * k
  {
    assert n * k - f * k == (n - f) * k;
  }

  /** The whole bin a frequency falls in. */
  function BinOf(axis: seq<real>, nyquist: real, x: int): (b: int)
    requires AxisInRange(axis, nyquist) && 0 <= x < |axis|
    ensures 0 <= b < FftBins
  {
    BinPositionWithin(axis[x], nyquist);
    Trunc(BinPosition(axis[x], nyquist))
  }

  /** The distance to the next axis value as a fraction of the spectrum. */
  function StepWidth(axis: seq<real>, nyquist: real, x: int): real
    requires 0 <= x && x + 1 < |axis| && nyquist != 0.0
  {
    (axis[x + 1] - axis[x]) / nyquist
  }

  /** The first index from `x` on whose step is wider than a bin, or the last
      index when there is none: where interpolation hands over to decimation. */
  function Crossover(axis: seq<real>, nyquist: real, x: int): (c: int)
    requires 0 <= x < |axis| && nyquist != 0.0
    ensures x <= c < |axis|
    ensures forall y :: x <= y < c ==> StepWidth(axis, nyquist, y) <= FftBinWidth()
    ensures c == |axis| - 1 || StepWidth(axis, nyquist, c) > FftBinWidth()
    decreases |axis| - x
  {
    if x == |axis| - 1 then x
    else if StepWidth(axis, nyquist, x) > FftBinWidth() then x
    else Crossover(axis, nyquist, x + 1)
  }

  // ---------------------------------------------------------------------------
  // Peak-hold decimation

  /** The index of the largest value among `input[lo..hi]` inclusive; among
      equal maxima the first. */
  function FirstMax(input: seq<real>, lo: int, hi: int): (m: int)
    requires 0 <= lo <= hi < |input|
    ensures lo <= m <= hi
    ensures forall k :: lo <= k <= hi ==> input[k] <= input[m]
    ensures forall k :: lo <= k < m ==> input[k] < input[m]
    decreases hi - lo
  {
    if lo == hi then lo
    else
      var m := FirstMax(input, lo, hi - 1);
      if input[hi] > input[m] then hi else m
  }

  /** The contract of `FirstMax` determines it: no other index is a first maximum. */
  lemma FirstMaxIsUnique(input: seq<real>, lo: int, hi: int, m: int)
    requires 0 <= lo <= m <= hi < |input|
    requires forall k :: lo <= k <= hi ==> input[k] <= input[m]
    requires forall k :: lo <= k < m ==> input[k] < input[m]
    ensures m == FirstMax(input, lo, hi)
  {
  }

  /** The bin displayed for a decimated axis position: the first loudest bin
      after `lastBin` up to `currentBin`, or `currentBin` when there is none. */
  function DecimatedBin(input: seq<real>, lastBin: int, currentBin: int): int
    requires -1 <= lastBin && 0 <= currentBin < |input|
  {
    if lastBin >= currentBin then currentBin else FirstMax(input, lastBin + 1, currentBin)
  }

  /** The decimation scan: walks the bins after `lastBin` up to `currentBin`
      keeping the first strictly louder one. "No candidate yet" stands for the
      lowest float the source starts from. */
  method PeakBin(input: seq<real>, lastBin: int, currentBin: int) returns (maxBin: int)
    requires -1 <= lastBin && 0 <= currentBin < |input|
    ensures maxBin == DecimatedBin(input, lastBin, currentBin)
  {
    maxBin := currentBin;
    var maxBinLevel: W.Option<real> := W.None;
    var nextBin := lastBin + 1;
    while nextBin <= currentBin
      invariant lastBin + 1 <= nextBin && (nextBin <= currentBin + 1 || nextBin == lastBin + 1)
      invariant nextBin == lastBin + 1 ==> maxBinLevel.None? && maxBin == currentBin
      invariant nextBin > lastBin + 1 ==>
        maxBin == FirstMax(input, lastBin + 1, nextBin - 1) && maxBinLevel == W.Some(input[maxBin])
    {
      var nextBinLevel := input[nextBin];
      if maxBinLevel.None? || nextBinLevel > maxBinLevel.value {
        maxBin := nextBin;
        maxBinLevel := W.Some(nextBinLevel);
      }
      nextBin := nextBin + 1;
    }
  }

  // ---------------------------------------------------------------------------
  // Resampling onto the axis

  datatype InterpolationMode = None | Linear | Lanczos

  /** The bin nearest to a fractional position, clamped to the spectrum. */
  function NearestBin(position: real): (b: int)
    ensures 0 <= b < FftBins
  {
    var rounded := Trunc(position + 0.5);
    if rounded < 0 then 0 else if rounded > FftBins - 1 then FftBins - 1 else rounded
  }

  /** The interpolated value of the spectrum at a fractional bin position. */
  function Interpolated(window: (real, int) -> real, mode: InterpolationMode, input: seq<real>, position: real): real
    requires |input| == FftBins && 0.0 <= position <= (FftBins - 1) as real
  {
    match mode
    case None => input[NearestBin(position)]
    case Linear => Filters.LinearFilter(input, position)
    case Lanczos =>
      Filters.WindowSum(input, window, position, LanczosFilterSize,
        Filters.WindowStart(position, LanczosFilterSize), Filters.WindowEnd(position, LanczosFilterSize))
  }

  /** What the resampling produces: interpolated values below the crossover,
      the value of the crossover's own bin at it, and peak-held bins above it. */
  ghost predicate Resampled(window: (real, int) -> real, mode: InterpolationMode, input: seq<real>,
                            axis: seq<real>, nyquist: real, output: seq<real>)
    requires |input| == FftBins && AxisInRange(axis, nyquist) && |axis| >= 1
  {
    var c := Crossover(axis, nyquist, 0);
    && |output| == |axis|
    && (forall x :: 0 <= x < c ==>
          BinPositionInRange(axis, nyquist, x) &&
          output[x] == Interpolated(window, mode, input, BinPosition(axis[x], nyquist)))
    && output[c] == input[BinOf(axis, nyquist, c)]
    && forall x :: c < x < |axis| ==>
         output[x] == input[DecimatedBin(input, BinOf(axis, nyquist, x - 1), BinOf(axis, nyquist, x))]
  }

  predicate BinPositionInRange(axis: seq<real>, nyquist: real, x: int)
    requires 0 <= x < |axis| && nyquist != 0.0
  {
    0.0 <= BinPosition(axis[x], nyquist) <= (FftBins - 1) as real
  }

  /** The value interpolation stores at axis position `x`. */
  method InterpolateAt(window: (real, int) -> real, mode: InterpolationMode, input: seq<real>, position: real)
    returns (v: real)
    requires |input| == FftBins && 0.0 <= position <= (FftBins - 1) as real
    ensures v == Interpolated(window, mode, input, position)
  {
    match mode {
      case None =>
        v := input[NearestBin(position)];
      case Linear =>
        v := Filters.LinearFilter(input, position);
      case Lanczos =>
        v := Filters.LanczosFilter(input, window, position, LanczosFilterSize);
    }
  }

  /** Resamples the averaged spectrum `input` onto the axis: interpolation
      while the axis steps are no wider than a bin, then peak-hold decimation. */
  method InterpolateData(window: (real, int) -> real, input: seq<real>, axis: seq<real>, nyquist: real,
                         mode: InterpolationMode) returns (output: seq<real>)
    requires |input| == FftBins && |axis| >= 1 && AxisInRange(axis, nyquist)
    ensures Resampled(window, mode, input, axis, nyquist, output)
  {
    var x;
    output, x := InterpolateLow(window, input, axis, nyquist, mode);
    output := DecimateHigh(input, axis, nyquist, output, x);
  }

  /** The first phase: interpolates axis positions from the bottom up to, not
      including, the crossover, and returns where it stopped. */
  method InterpolateLow(window: (real, int) -> real, input: seq<real>, axis: seq<real>, nyquist: real,
                        mode: InterpolationMode) returns (output: seq<real>, x: int)
    requires |input| == FftBins && |axis| >= 1 && AxisInRange(axis, nyquist)
    ensures x == Crossover(axis, nyquist, 0) && |output| == |axis|
    ensures forall y :: 0 <= y < x ==>
      BinPositionInRange(axis, nyquist, y) &&
      output[y] == Interpolated(window, mode, input, BinPosition(axis[y], nyquist))
  {
    var res := |axis|;
    output := Zeros(res);
    x := 0;
    while x < res - 1
      invariant 0 <= x <= res - 1 && |output| == res
      invariant forall y :: 0 <= y < x ==> StepWidth(axis, nyquist, y) <= FftBinWidth()
      invariant forall y :: 0 <= y < x ==>
        BinPositionInRange(axis, nyquist, y) &&
        output[y] == Interpolated(window, mode, input, BinPosition(axis[y], nyquist))
    {
      if StepWidth(axis, nyquist, x) > FftBinWidth() {
        break;
      }
      BinPositionWithin(axis[x], nyquist);
      var v := InterpolateAt(window, mode, input, BinPosition(axis[x], nyquist));
      output := output[x := v];
      x := x + 1;
    }
    CrossoverIsFirstWide(axis, nyquist, 0, x);
  }

  /** A position from which every earlier step is narrow and whose own step
      is wide (or which has no step after it) is the crossover. */
  lemma {:induction false} CrossoverIsFirstWide(axis: seq<real>, nyquist: real, from: int, x: int)
    requires 0 <= from <= x < |axis| && nyquist != 0.0
    requires forall y :: from <= y < x ==> StepWidth(axis, nyquist, y) <= FftBinWidth()
    requires x == |axis| - 1 || StepWidth(axis, nyquist, x) > FftBinWidth()
    ensures x == Crossover(axis, nyquist, from)
    decreases x - from
  {
    if from < x {
      CrossoverIsFirstWide(axis, nyquist, from + 1, x);
    }
  }

  /** The second phase: from the crossover `c` on, each position shows the
      loudest bin between the previous position's bin and its own; the
      positions below `c` are kept. */
  method DecimateHigh(input: seq<real>, axis: seq<real>, nyquist: real, output0: seq<real>, c: int)
    returns (output: seq<real>)
    requires |input| == FftBins && AxisInRange(axis, nyquist)
    requires 0 <= c < |axis| && |output0| == |axis|
    ensures |output| == |axis|
    ensures forall y :: 0 <= y < c ==> output[y] == output0[y]
    ensures output[c] == input[BinOf(axis, nyquist, c)]
    ensures forall y :: c < y < |axis| ==>
      output[y] == input[DecimatedBin(input, BinOf(axis, nyquist, y - 1), BinOf(axis, nyquist, y))]
  {
    output := output0;
    var x := c;
    var lastBin := BinOf(axis, nyquist, x);
    while x < |axis|
      invariant c <= x <= |axis| && |output| == |axis|
      invariant lastBin == BinOf(axis, nyquist, if x == c then c else x - 1)
      invariant forall y :: 0 <= y < c ==> output[y] == output0[y]
      invariant c < x ==> output[c] == input[BinOf(axis, nyquist, c)]
      invariant forall y :: c < y < x ==>
        output[y] == input[DecimatedBin(input, BinOf(axis, nyquist, y - 1), BinOf(axis, nyquist, y))]
    {
      var currentBin := BinOf(axis, nyquist, x);
      var maxBin := PeakBin(input, lastBin, currentBin);
      output := output[x := input[maxBin]];
      lastBin := currentBin;
      x := x + 1;
    }
  }

  // ---------------------------------------------------------------------------
  // Reading the display values back

  /** A display value: the frequency reported for a position and its level
      on a normalized decibel scale. */
  datatype FrequencyInfo = FrequencyInfo(frequency: real, level: real)

  /** The decibel range that the level maps onto [0, 1]. */
  const LevelFloorDb: real := -90.0
  const LevelCeilingDb: real := 10.0

  /** The reported frequency for `index` is read from the mirrored axis
      position, while the level is that of the resampled value at `index`
      itself. A level is only computed when the maximum level is non-zero;
      it is the decibel value mapped linearly from [-90, 10] onto [0, 1]
      without clamping. */
  function GetFrequencyInfo(axis: seq<real>, visuData: seq<real>, maxFftLevel: real,
                            gainToDecibels: real -> real, index: int): (info: FrequencyInfo)
    requires |visuData| == |axis| && 0 <= index < |axis|
    ensures info.frequency == axis[Mirror(|axis|, index)]
    ensures maxFftLevel == 0.0 ==> info.level == 0.0
    ensures maxFftLevel != 0.0 ==>
      Lerp(info.level, LevelFloorDb, LevelCeilingDb) == gainToDecibels(visuData[index])
  {
    var j := |axis| - index - 1;
    var db := gainToDecibels(visuData[index]);
    LerpUnlerp(db, LevelFloorDb, LevelCeilingDb);
    var level := if maxFftLevel != 0.0 then Unlerp(db, LevelFloorDb, LevelCeilingDb) else 0.0;
    FrequencyInfo(axis[j], level)
  }

  /** The position read from the far end of an axis of `n` values. */
  function Mirror(n: int, index: int): (j: int)
    requires 0 <= index < n
    ensures 0 <= j < n
  {
    n - index - 1
  }

  /** Mirroring is its own inverse, so every axis position is reported for
      exactly one index. */
  lemma MirrorIsInvolution(n: int, i: int, k: int)
    requires 0 <= i < n && 0 <= k < n
    ensures Mirror(n, Mirror(n, i)) == i
    ensures Mirror(n, i) == Mirror(n, k) <==> i == k
  {
  }

  /** On a strictly increasing axis the reported frequency strictly decreases
      with the index: the first index reports the top of the axis and the last
      one its bottom. */
  lemma ReportedFrequencyDecreases(axis: seq<real>, visuData: seq<real>, maxFftLevel: real,
                                   gainToDecibels: real -> real, i: int, k: int)
    requires |visuData| == |axis| && 0 <= i < k < |axis|
    requires FA.StrictlyIncreasing(axis)
    ensures GetFrequencyInfo(axis, visuData, maxFftLevel, gainToDecibels, i).frequency
          > GetFrequencyInfo(axis, visuData, maxFftLevel, gainToDecibels, k).frequency
    ensures GetFrequencyInfo(axis, visuData, maxFftLevel, gainToDecibels, 0).frequency == axis[|axis| - 1]
  {
    assert Mirror(|axis|, k) < Mirror(|axis|, i);
  }

  /** The level lies in [0, 1] exactly when the decibel value lies in
      [-90, 10]; above 10 dB it exceeds 1, below -90 dB it is negative. */
  lemma LevelUnclamped(axis: seq<real>, visuData: seq<real>, maxFftLevel: real,
                       gainToDecibels: real -> real, index: int)
    requires |visuData| == |axis| && 0 <= index < |axis| && maxFftLevel != 0.0
    ensures var db := gainToDecibels(visuData[index]);
      var level := GetFrequencyInfo(axis, visuData, maxFftLevel, gainToDecibels, index).level;
      && (LevelFloorDb <= db <= LevelCeilingDb <==> 0.0 <= level <= 1.0)
      && (db > LevelCeilingDb ==> level > 1.0)
      && (db < LevelFloorDb ==> level < 0.0)
  {
    var db := gainToDecibels(visuData[index]);
    var level := GetFrequencyInfo(axis, visuData, maxFftLevel, gainToDecibels, index).level;
    LerpEndpoints(LevelFloorDb, LevelCeilingDb);
    LevelOrder(level, 0.0);
    LevelOrder(1.0, level);
  }

  /** The map from level to decibels is strictly increasing. */
  lemma LevelOrder(p: real, q: real)
    ensures p < q <==> Lerp(p, LevelFloorDb, LevelCeilingDb) < Lerp(q, LevelFloorDb, LevelCeilingDb)
  {
    if p < q {
      LerpStrictlyIncreasing(p, q, LevelFloorDb, LevelCeilingDb);
    } else if q < p {
      LerpStrictlyIncreasing(q, p, LevelFloorDb, LevelCeilingDb);
    }
  }

  // ---------------------------------------------------------------------------
  // The analyzer's state and its per-frame update

  /** The foreign signal processing: the Hann window's table of `FftSize`
      coefficients, the magnitude-only forward transform (in place over
      `2 * FftSize` values) and the Lanczos window away from 0. */
  datatype Dsp = Dsp(window: seq<real>, transform: seq<real> -> seq<real>, kernel: (real, int) -> real)

  ghost predicate DspValid(dsp: Dsp) {
    && |dsp.window| == FftSize
    && forall x: seq<real> :: |x| == 2 * FftSize ==> |dsp.transform(x)| == 2 * FftSize
  }

  /** What the analyzer keeps between frames: the audio ring, the last frame
      read from it, the averager, the resampled spectrum, the frequency axis,
      the sample rate and the maximum level. */
  datatype Analyzer = Analyzer(ring: RB.Ring, readBuffer: RB.AudioBuffer, averager: Averager,
                               visuData: seq<real>, frequencyAxis: FA.Axis, sampleRate: real,
                               maxFftLevel: real)

  /** A stereo ring with room for a whole frame, a stereo frame of `FftSize`
      samples, a consistent averager over the bins, and an axis inside
      [0, Nyquist] with one resampled value per axis position. */
  predicate AnalyzerValid(s: Analyzer) {
    && RB.Valid(s.ring) && |s.ring.storage.data| == 2 && s.ring.fifo.size >= FftSize
    && RB.WellFormed(s.readBuffer) && |s.readBuffer.data| == 2 && s.readBuffer.numSamples == FftSize
    && AveragerValid(s.averager, FftBins)
    && |s.frequencyAxis.frequencyMap| >= 1
    && AxisInRange(s.frequencyAxis.frequencyMap, Nyquist(s.sampleRate))
    && |s.visuData| == |s.frequencyAxis.frequencyMap|
  }

  /** The transform's input for a frame: the two channels summed and
      windowed on the first `FftSize` positions, zero on the rest. */
  function FftInput(window: seq<real>, frame: RB.AudioBuffer): (x: seq<real>)
    requires |window| == FftSize && |frame.data| >= 2
    requires |frame.data[0]| >= FftSize && |frame.data[1]| >= FftSize
    ensures |x| == 2 * FftSize
  {
    seq(2 * FftSize, i requires 0 <= i < 2 * FftSize =>
      if i < FftSize then (frame.data[0][i] + frame.data[1][i]) * window[i] else 0.0)
  }

  /** Multiplies the first `|table|` values by the window table. */
  method ApplyWindow(data: seq<real>, table: seq<real>) returns (out: seq<real>)
    requires |table| <= |data|
    ensures |out| == |data|
    ensures forall i :: 0 <= i < |table| ==> out[i] == data[i] * table[i]
    ensures forall i :: |table| <= i < |data| ==> out[i] == data[i]
  {
    out := data;
    var i := 0;
    while i < |table|
      invariant 0 <= i <= |table| && |out| == |data|
      invariant forall j :: 0 <= j < i ==> out[j] == data[j] * table[j]
      invariant forall j :: i <= j < |data| ==> out[j] == data[j]
    {
      out := out[i := out[i] * table[i]];
      i := i + 1;
    }
  }

  /** The frame's channels summed into the cleared FFT buffer and windowed:
      exactly the transform's input `FftInput`. */
  method PrepareFrame(window: seq<real>, frame: RB.AudioBuffer) returns (fftData: seq<real>)
    requires |window| == FftSize && |frame.data| >= 2
    requires |frame.data[0]| >= FftSize && |frame.data[1]| >= FftSize
    ensures fftData == FftInput(window, frame)
  {
    fftData := SumChannels(frame.data, FftSize);
    fftData := ApplyWindow(fftData, window);
    forall i | 0 <= i < 2 * FftSize
      ensures fftData[i] == FftInput(window, frame)[i]
    {
    }
  }

  /** Half of a frame is released from the ring on each read. */
  lemma HalfFrameConsumed()
    ensures RB.Consumed(FftSize, ReadOverlap) == FftSize / 2
  {
    assert FftSize as real * (1.0 - ReadOverlap) == 2048.0;
  }

  /** One frame of analysis. The read's outcome is ignored: when fewer than a
      frame of samples are ready the previous frame is analysed again. The
      frame's spectrum replaces the oldest of the averaged spectra, the
      maximum level is the fixed one, and the averaged spectrum is resampled
      onto the axis with the Lanczos filter. The update always reports success. */
  method UpdateData(dsp: Dsp, s: Analyzer) returns (updated: bool, s': Analyzer)
    requires AnalyzerValid(s) && DspValid(dsp)
    ensures updated
    ensures AnalyzerValid(s') && s'.frequencyAxis == s.frequencyAxis && s'.sampleRate == s.sampleRate
    ensures s'.maxFftLevel == FixedMaxLevel
    ensures F.NumReady(s.ring.fifo) < FftSize ==> s'.ring == s.ring && s'.readBuffer == s.readBuffer
    ensures F.NumReady(s.ring.fifo) >= FftSize ==>
      && (forall c :: 0 <= c < 2 ==> s'.readBuffer.data[c] == RB.Ready(s.ring, c)[..FftSize])
      && F.NumReady(s'.ring.fifo) == F.NumReady(s.ring.fifo) - FftSize / 2
    ensures s'.averager.slots[s.averager.ptr] == Scaled(dsp.transform(FftInput(dsp.window, s'.readBuffer)), FftBins)
    ensures forall k :: 1 <= k < AveragerChannels && k != s.averager.ptr ==> s'.averager.slots[k] == s.averager.slots[k]
    ensures s'.averager.ptr == NextPtr(s.averager.ptr)
    ensures Resampled(dsp.kernel, Lanczos, s'.averager.slots[0], s.frequencyAxis.frequencyMap,
                      Nyquist(s.sampleRate), s'.visuData)
  {
    HalfFrameConsumed();
    var read := RB.ReadSamples(s.ring, s.readBuffer, ReadOverlap);
    var frame := read.2;
    var fftData := PrepareFrame(dsp.window, frame);
    fftData := dsp.transform(fftData);
    var averager := AveragerUpdate(s.averager, fftData, FftBins);
    var visuData := InterpolateData(dsp.kernel, averager.slots[0], s.frequencyAxis.frequencyMap,
                                    Nyquist(s.sampleRate), Lanczos);
    s' := s.(ring := read.1, readBuffer := frame, averager := averager, visuData := visuData,
             maxFftLevel := FixedMaxLevel);
    updated := true;
  }

  /** The analyzer as constructed: a logarithmic axis of `outputResolution`
      values from 20 Hz to the Nyquist frequency, a cleared stereo ring of ten
      frames, a cleared stereo frame, a cleared averager pointing at slot 1
      and a cleared resampled spectrum. The maximum level is not set by the
      constructor and is taken as given. */
  function CreateAnalyzer(t: NR.Transcendentals, sampleRate: real, outputResolution: int, maxFftLevel: real): (s: Analyzer)
    requires NR.Lawful(t) && outputResolution >= 2 && MinFrequency < Nyquist(sampleRate)
    ensures AnalyzerValid(s)
    ensures FA.GetResolution(s.frequencyAxis) == |s.visuData| == outputResolution
    ensures s.frequencyAxis.frequencyMap[0] == MinFrequency
    ensures s.frequencyAxis.frequencyMap[outputResolution - 1] == Nyquist(sampleRate)
    ensures F.NumReady(s.ring.fifo) == 0 && F.FreeSpace(s.ring.fifo) == 10 * FftSize
    ensures s.averager.ptr == 1 && forall i :: 0 <= i < FftBins ==> s.averager.slots[0][i] == 0.0
    ensures forall x :: 0 <= x < outputResolution ==> s.visuData[x] == 0.0
  {
    var axis := FA.Create(t, outputResolution, MinFrequency, Nyquist(sampleRate));
    AxisWithinRange(t, axis);
    FA.LogAxisSpansRange(t, axis);
    Analyzer(RB.Create(2, FftSize * 10), RB.Silence(2, FftSize), CreateAverager(FftBins),
             Zeros(outputResolution), axis, sampleRate, maxFftLevel)
  }

  /** Every value of a logarithmic axis over a positive range lies between
      the range's bounds. */
  lemma AxisWithinRange(t: NR.Transcendentals, a: FA.Axis)
    requires FA.Valid(t, a) && a.distribution == FA.Logarithmic
    requires NR.Lawful(t) && NR.LogReady(t, a.frequencyRange)
    ensures forall x :: 0 <= x < |a.frequencyMap| ==>
      a.frequencyRange.minValue <= a.frequencyMap[x] <= a.frequencyRange.maxValue
  {
    FA.LogAxisSpansRange(t, a);
    var n := |a.frequencyMap|;
    forall x | 0 <= x < n
      ensures a.frequencyRange.minValue <= a.frequencyMap[x] <= a.frequencyRange.maxValue
    {
      if 0 < x {
        assert a.frequencyMap[0] < a.frequencyMap[x];
      }
      if x < n - 1 {
        assert a.frequencyMap[x] < a.frequencyMap[n - 1];
      }
    }
  }
}

=== FILE: spectrogram3d.dfy ===
/** The 3D spectrogram view: a grid of vertices, frequency along x and time
    along z, drawn as two triangles per grid cell. Each frame the newest
    levels are written into the first row and every older row moves one row
    back in time. */
module Spectrogram3D {
  import S = Spectrogram

  /** The extent of the grid along the frequency and time axes. The view asks
      the analyzer for 250 frequency values and uses as many time rows, so the
      grid it builds has X = Z = 250; the operations below take X and Z as
      parameters. */
  const FreqWidth: real := 3.0
  const TimeDepth: real := 3.0

  datatype Vertex = Vertex(x: real, y: real, z: real)

  /** Where grid line `i` of `n` lies along an axis of length `extent`: the
      grid starts at `-extent / 2` and steps by `extent / n`. */
  function GridCoordinate(extent: real, n: int, i: int): real
    requires n >= 1
  {
    -(extent / 2.0) + i as real * (extent / n as real)
  }

  /** The position in the vertex list of the vertex in time row `zi` and
      frequency column `xi`: rows one after another, columns inside a row. */
  function VertexIndex(X: int, zi: int, xi: int): int {
    zi * X + xi
  }

  /** `X * Z` vertices, row by row, all at height 0. */
  method InitializeVertices(X: int, Z: int) returns (vertices: seq<Vertex>)
    requires X >= 1 && Z >= 1
    ensures |vertices| == X * Z
    ensures forall zi, xi :: 0 <= zi < Z && 0 <= xi < X ==>
      && VertexIndex(X, zi, xi) < |vertices|
      && vertices[VertexIndex(X, zi, xi)]
         == Vertex(GridCoordinate(FreqWidth, X, xi), 0.0, GridCoordinate(TimeDepth, Z, zi))
  {
    vertices := [];
    var zi := 0;
    while zi < Z
      invariant 0 <= zi <= Z && |vertices| == VertexIndex(X, zi, 0)
      invariant forall a, b :: 0 <= a < zi && 0 <= b < X ==>
        && VertexIndex(X, a, b) < |vertices|
        && vertices[VertexIndex(X, a, b)]
           == Vertex(GridCoordinate(FreqWidth, X, b), 0.0, GridCoordinate(TimeDepth, Z, a))
    {
      var xi := 0;
      while xi < X
        invariant 0 <= xi <= X && |vertices| == VertexIndex(X, zi, xi)
        invariant forall a, b :: ((0 <= a < zi && 0 <= b < X) || (a == zi && 0 <= b < xi)) ==>
          && VertexIndex(X, a, b) < |vertices|
          && vertices[VertexIndex(X, a, b)]
             == Vertex(GridCoordinate(FreqWidth, X, b), 0.0, GridCoordinate(TimeDepth, Z, a))
      {
        vertices := vertices + [Vertex(GridCoordinate(FreqWidth, X, xi), 0.0, GridCoordinate(TimeDepth, Z, zi))];
        xi := xi + 1;
      }
      NextRow(X, zi);
      zi := zi + 1;
    }
  }

  /** The two triangles of the grid cell whose lowest corner is row `z`, column `x`. */
  function Quad(X: int, z: int, x: int): seq<int> {
    var k := VertexIndex(X, z, x);
    [k, k + 1, k + X, k + 1, k + X + 1, k + X]
  }

  /** Where the triangles of cell (`z`, `x`) start in the index list: cells
      row by row, `X - 1` cells per row, six indices per cell. */
  function QuadStart(X: int, z: int, x: int): int {
    6 * (z * (X - 1) + x)
  }

  /** The triangle list over a grid of `X` by `Z` vertices. */
  method InitializeIndices(X: int, Z: int) returns (indices: seq<int>)
    requires X >= 1 && Z >= 1
    ensures |indices| == 6 * (X - 1) * (Z - 1)
    ensures forall i :: 0 <= i < |indices| ==> 0 <= indices[i] < X * Z
    ensures forall z, x :: 0 <= z < Z - 1 && 0 <= x < X - 1 ==>
      && QuadStart(X, z, x) + 6 <= |indices|
      && indices[QuadStart(X, z, x)..QuadStart(X, z, x) + 6] == Quad(X, z, x)
  {
    indices := [];
    var z := 0;
    while z < Z - 1
      invariant 0 <= z <= Z - 1 && |indices| == QuadStart(X, z, 0)
      invariant InGrid(indices, X * Z) && QuadsPlaced(indices, X, z, 0)
    {
      indices := AppendRow(indices, X, Z, z);
      z := z + 1;
    }
    assert |indices| == 6 * ((Z - 1) * (X - 1));
  }

  /** Appends the triangles of the cells of row `z`. */
  method AppendRow(indices: seq<int>, X: int, Z: int, z: int) returns (indices': seq<int>)
    requires X >= 1 && 0 <= z < Z - 1
    requires |indices| == QuadStart(X, z, 0)
    requires InGrid(indices, X * Z) && QuadsPlaced(indices, X, z, 0)
    ensures |indices'| == QuadStart(X, z + 1, 0)
    ensures InGrid(indices', X * Z) && QuadsPlaced(indices', X, z + 1, 0)
  {
    indices' := indices;
    var x := 0;
    while x < X - 1
      invariant 0 <= x <= X - 1 && |indices'| == QuadStart(X, z, x)
      invariant InGrid(indices', X * Z) && QuadsPlaced(indices', X, z, x)
    {
      var index := z * X + x;
      QuadInGrid(X, Z, z, x);
      var quad := [index, index + 1, index + X, index + 1, index + X + 1, index + X];
      PlaceQuad(indices', X, z, x);
      indices' := indices' + quad;
      x := x + 1;
    }
    NextQuadRow(X, z);
  }

  /** Every index names one of `count` vertices. */
  predicate InGrid(indices: seq<int>, count: int) {
    forall i :: 0 <= i < |indices| ==> 0 <= indices[i] < count
  }

  /** The cells before (`z`, `x`), row by row, each have their six indices
      at their start in `indices`. */
  ghost predicate QuadsPlaced(indices: seq<int>, X: int, z: int, x: int) {
    forall a, b :: ((0 <= a < z && 0 <= b < X - 1) || (a == z && 0 <= b < x)) ==>
      && 0 <= QuadStart(X, a, b)
      && QuadStart(X, a, b) + 6 <= |indices|
      && indices[QuadStart(X, a, b)..QuadStart(X, a, b) + 6] == Quad(X, a, b)
  }

  /** The list of vertex heights. */
  function Heights(vertices: seq<Vertex>): (h: seq<real>)
    ensures |h| == |vertices|
  {
    seq(|vertices|, i requires 0 <= i < |vertices| => vertices[i].y)
  }

  /** One step of the time scroll over a list of heights: the new row goes
      in front, every other value moves back by one row, and the values that
      fall off the end are dropped. */
  function Scroll(heights: seq<real>, row: seq<real>): (h: seq<real>)
    ensures |h| == |heights|
  {
    (row + heights)[..|heights|]
  }

  /** The newest row of levels, one per frequency position. */
  function NewRow(s: S.Analyzer, gainToDecibels: real -> real): (row: seq<real>)
    requires |s.visuData| == |s.frequencyAxis.frequencyMap|
    ensures |row| == |s.frequencyAxis.frequencyMap|
  {
    var res := |s.frequencyAxis.frequencyMap|;
    seq(res, i requires 0 <= i < res =>
      S.GetFrequencyInfo(s.frequencyAxis.frequencyMap, s.visuData, s.maxFftLevel, gainToDecibels, i).level)
  }

  /** The height update of a frame: the new levels go into the first row,
      every other row takes the heights of the row before it, and only the
      heights change. */
  method RenderHeights(s: S.Analyzer, gainToDecibels: real -> real, vertices: seq<Vertex>)
    returns (vertices': seq<Vertex>)
    requires |s.visuData| == |s.frequencyAxis.frequencyMap|
    ensures |vertices'| == |vertices|
    ensures forall i :: 0 <= i < |vertices| ==> vertices'[i].x == vertices[i].x && vertices'[i].z == vertices[i].z
    ensures Heights(vertices') == Scroll(Heights(vertices), NewRow(s, gainToDecibels))
  {
    var heights := ScrollHeights(s, gainToDecibels, Heights(vertices));
    vertices' := seq(|vertices|, i requires 0 <= i < |vertices| => vertices[i].(y := heights[i]));
    assert Heights(vertices') == heights;
  }

  /** The loop over the heights. Walking from the last vertex down, a vertex
      of the first row takes the new level of its frequency position; any
      other vertex takes the height of the vertex one row earlier, which the
      downward walk has not overwritten yet. */
  method ScrollHeights(s: S.Analyzer, gainToDecibels: real -> real, heights: seq<real>)
    returns (heights': seq<real>)
    requires |s.visuData| == |s.frequencyAxis.frequencyMap|
    ensures |heights'| == |heights|
    ensures forall i :: 0 <= i < |heights| && i < |s.frequencyAxis.frequencyMap| ==>
      heights'[i] == S.GetFrequencyInfo(s.frequencyAxis.frequencyMap, s.visuData, s.maxFftLevel, gainToDecibels, i).level
    ensures forall i :: |s.frequencyAxis.frequencyMap| <= i < |heights| ==>
      heights'[i] == heights[i - |s.frequencyAxis.frequencyMap|]
    ensures heights' == Scroll(heights, NewRow(s, gainToDecibels))
  {
    var res := |s.frequencyAxis.frequencyMap|;
    ghost var row := NewRow(s, gainToDecibels);
    heights' := heights;
    var i := |heights|;
    while i > 0
      invariant 0 <= i <= |heights| && |heights'| == |heights|
      invariant forall j :: 0 <= j < i ==> heights'[j] == heights[j]
      invariant forall j :: i <= j < |heights| && j < res ==> heights'[j] == row[j]
      invariant forall j :: i <= j < |heights| && res <= j ==> heights'[j] == heights[j - res]
    {
      i := i - 1;
      if i < res {
        var info := S.GetFrequencyInfo(s.frequencyAxis.frequencyMap, s.visuData, s.maxFftLevel, gainToDecibels, i);
        heights' := heights'[i := info.level];
      } else {
        heights' := heights'[i := heights'[i - res]];
      }
    }
    ScrollByPosition(heights, row, heights');
  }

  // ---------------------------------------------------------------------------
  // Properties

  /** Every grid position has its own vertex in `[0, X * Z)`. */
  lemma VertexIndexInGrid(X: int, Z: int, zi: int, xi: int)
    requires X >= 1 && 0 <= zi < Z && 0 <= xi < X
    ensures 0 <= VertexIndex(X, zi, xi) < X * Z
  {
    RowBelowGrid(X, Z, zi);
  }

  /** Different grid positions have different vertices. */
  lemma VertexIndexInjective(X: int, zi: int, xi: int, zj: int, xj: int)
    requires X >= 1 && 0 <= zi && 0 <= xi < X && 0 <= zj && 0 <= xj < X
    ensures VertexIndex(X, zi, xi) == VertexIndex(X, zj, xj) <==> zi == zj && xi == xj
  {
    if zi < zj {
      RowsOrdered(X, zi, zj);
    } else if zj < zi {
      RowsOrdered(X, zj, zi);
    }
  }

  /** Every vertex belongs to a grid position: vertex `k` is in row `k / X`,
      column `k % X`. */
  lemma VertexIndexCovers(X: int, Z: int, k: int)
    requires X >= 1 && Z >= 1 && 0 <= k < X * Z
    ensures 0 <= k / X < Z && 0 <= k % X < X && VertexIndex(X, k / X, k % X) == k
  {
    var q, r := k / X, k % X;
    assert k == q * X + r;
    if q >= Z {
      RowsOrdered(X, Z - 1, q);
      assert false;
    }
  }

  /** The six indices of a cell are the cell's four corners, and its two
      triangles share the diagonal from the corner after the first to the
      corner one row later. */
  lemma QuadCoversCell(X: int, Z: int, z: int, x: int)
    requires X >= 1 && 0 <= z < Z - 1 && 0 <= x < X - 1
    ensures var q := Quad(X, z, x);
      && (set j | 0 <= j < 6 :: q[j])
         == {VertexIndex(X, z, x), VertexIndex(X, z, x + 1), VertexIndex(X, z + 1, x), VertexIndex(X, z + 1, x + 1)}
      && q[1] == q[3] == VertexIndex(X, z, x + 1)
      && q[2] == q[5] == VertexIndex(X, z + 1, x)
  {
    var q := Quad(X, z, x);
    assert VertexIndex(X, z + 1, x) == VertexIndex(X, z, x) + X;
    assert q[0] == VertexIndex(X, z, x) && q[4] == VertexIndex(X, z + 1, x + 1);
    var corners := set j | 0 <= j < 6 :: q[j];
    assert q[0] in corners && q[1] in corners && q[2] in corners && q[4] in corners;
  }

  /** The grid starts at minus half the extent and steps evenly, so its
      last line lies one step short of plus half the extent. */
  lemma GridStopsShortOfEdge(extent: real, n: int, i: int, j: int)
    requires n >= 1 && 0.0 < extent && 0 <= i < j
    ensures GridCoordinate(extent, n, 0) == -(extent / 2.0)
    ensures GridCoordinate(extent, n, n) == extent / 2.0
    ensures GridCoordinate(extent, n, i) < GridCoordinate(extent, n, j)
  {
    var step := extent / n as real;
    assert n as real * step == extent;
    assert j as real * step - i as real * step == (j - i) as real * step;
    assert 0.0 < step;
    assert 0.0 < (j - i) as real * step;
  }

  /** Two scrolls in a row: the first row holds the newest levels, the
      second row the levels before them, and the rest is two rows older. */
  lemma ScrollTwice(heights: seq<real>, a: seq<real>, b: seq<real>)
    requires |a| == |b| && 2 * |a| <= |heights|
    ensures var h := Scroll(Scroll(heights, a), b);
      && h[..|b|] == b
      && h[|b|..2 * |b|] == a
      && h[2 * |b|..] == heights[..|heights| - 2 * |b|]
  {
    var h := Scroll(Scroll(heights, a), b);
    assert forall i :: |b| <= i < 2 * |b| ==> h[i] == a[i - |b|];
    assert forall i :: 2 * |b| <= i < |h| ==> h[i] == heights[i - 2 * |b|];
  }

  // ---------------------------------------------------------------------------
  // Proofs

  lemma NextRow(X: int, zi: int)
    ensures VertexIndex(X, zi, X) == VertexIndex(X, zi + 1, 0)
  {
  }

  lemma NextQuadRow(X: int, z: int)
    ensures QuadStart(X, z, X - 1) == QuadStart(X, z + 1, 0)
  {
  }

  lemma {:induction false} RowsOrdered(X: int, a: int, b: int)
    requires X >= 0 && a < b
    ensures a * X + X <= b * X
    decreases b - a
  {
    if a + 1 < b {
      RowsOrdered(X, a, b - 1);
    }
    assert b * X == (b - 1) * X + X;
  }

  lemma RowBelowGrid(X: int, Z: int, zi: int)
    requires X >= 1 && 0 <= zi < Z
    ensures 0 <= zi * X && zi * X + X <= X * Z
  {
    if zi < Z - 1 {
      RowsOrdered(X, zi, Z - 1);
    }
  }

  /** Every index of cell (`z`, `x`) names a vertex of the grid. */
  lemma QuadInGrid(X: int, Z: int, z: int, x: int)
    requires X >= 1 && 0 <= z < Z - 1 && 0 <= x < X - 1
    ensures 0 <= z * X + x && z * X + x + X + 1 < X * Z
  {
    RowBelowGrid(X, Z, z + 1);
    assert (z + 1) * X == z * X + X;
  }

  /** Appending the indices of the next cell places it and keeps the earlier ones. */
  lemma PlaceQuad(indices: seq<int>, X: int, z: int, x: int)
    requires X >= 1 && 0 <= z && 0 <= x < X - 1
    requires |indices| == QuadStart(X, z, x) && QuadsPlaced(indices, X, z, x)
    ensures QuadsPlaced(indices + Quad(X, z, x), X, z, x + 1)
  {
    var s := indices + Quad(X, z, x);
    forall a, b | (0 <= a < z && 0 <= b < X - 1) || (a == z && 0 <= b < x + 1)
      ensures 0 <= QuadStart(X, a, b) && QuadStart(X, a, b) + 6 <= |s|
      ensures s[QuadStart(X, a, b)..QuadStart(X, a, b) + 6] == Quad(X, a, b)
    {
      if a == z && b == x {
        assert s[|indices|..|indices| + 6] == Quad(X, z, x);
      } else {
        var p := QuadStart(X, a, b);
        assert s[p..p + 6] == indices[p..p + 6];
      }
    }
  }

  lemma ScrollByPosition(heights: seq<real>, row: seq<real>, h: seq<real>)
    requires |h| == |heights|
    requires forall i :: 0 <= i < |h| && i < |row| ==> h[i] == row[i]
    requires forall i :: |row| <= i < |h| ==> h[i] == heights[i - |row|]
    ensures h == Scroll(heights, row)
  {
  }
}

=== FILE: wrappers.dfy ===
/** Plain `Option` and `Result` datatypes, used by the queue and the interpolator. */
module Wrappers {

  datatype Option<+T> = None | Some(value: T)

  datatype Result<+R, +E> = Success(value: R) | Failure(error: E)
}
